=== FILE: README.md ===
# Exam calendar generator: a verified model

The program turns a data file that describes universities into one iCalendar
file per university. It works with a second file of event formats. Every
exam type of a university has dates such as the application window, the exam
day and the result announcement. Each format entry says which date key to
look for. It also gives the templates for the event's title and description,
and the links into the university's PDF guide that belong with it.

This project models the logic behind the calendar files:

- `parse_time` (module `TimeRange`) reads a `#`-prefixed time token such as
  `#20250601-20250603` or `#T0900-T1030` into a start and an end date-time.
  It is a greedy left-to-right scanner over fixed-width digit groups, which is
  what the regular expression amounts to. Missing parts are filled from a
  reference date, and the end is resolved by six ordered rules.
- `time_delta` (module `Duration`) gives the length of an `hhmm-hhmm` range
  in whole minutes, truncated toward zero, as a decimal string.
- `format_string` (module `Template`) makes one pass over the `{...}`
  placeholders of a template. A placeholder is a plain key lookup, a
  `TID[key]` duration, or a `FOR[key][format]` loop over the rows of a list.
- `generate_event` and the loops of `generate_ics` (module `Events`) build
  the events of every exam type and format entry, and the calendar of every
  university. Events and calendars are plain records here.

The supporting modules are:

- `Dates`: proleptic Gregorian date-times, with the calendar arithmetic of
  `timedelta(days=1)` and `timedelta(hours=1)`.
- `Json`: the values `json.load` produces, and the dictionary, indexing,
  membership, iteration and `str` operations the program applies to them.
- `Text`: string helpers such as `str.replace`, `split`, `rstrip`, `int`
  and `str`.
- `Outcomes`: Python exceptions, modelled as a `Result`. An operation either
  returns `Ok(value)` or `Raised(kind)`, and the first exception of a
  sequence stops it.

The reference date of `datetime.today()` is an explicit parameter `today`.

## Model

| member | source | states |
|---|---|---|
| Text.IntToStringRoundTrip | main.py:61 | the decimal text `str(n)` of any integer reads back as the same integer |
| Text.SplitPair | main.py:72 | unpacking `split("][")` into two names, when it succeeds, gives the text before and after the separator, and neither part contains it; a text without the separator raises `ValueError` |
| Text.SplitAround | main.py:72 | a text with a single occurrence of a separator is the part before it, the separator and the part after it, and neither part contains the separator |
| Text.RStrip | main.py:73 | `rstrip(c)` keeps a prefix that does not end in `c` and drops only copies of `c` |
| Text.Dedup | main.py:91 | iterating `set(matches)` visits every match once and nothing else |
| Text.ReplaceAll | main.py:92 | replacing a pattern by itself leaves the text unchanged |
| Text.ReplaceAllAfter | main.py:92 | text in which no occurrence of the pattern starts is copied unchanged, and the replacement continues after it |
| Text.ReplaceAllOccurrence | main.py:92 | the text before the first occurrence is copied, that occurrence is swapped for the replacement, and the scan continues after it without rescanning the replacement |
| Text.ReplaceAllNone | main.py:92 | `str.replace` leaves a text without the pattern unchanged |
| Text.SplitOnConcat | main.py:113-115 | splitting two texts joined by a separator gives the pieces of the first, then the pieces of the second |
| Text.JoinSplitOn | main.py:160 | splitting a text at a separator and joining it back with that separator gives the text |
| Dates.Make | main.py:41 | `datetime(y, m, d, h, mi, s)` succeeds exactly for a valid date-time with year 1 to 9999, and raises `ValueError` otherwise |
| Dates.AddOneDay | main.py:51 | adding one day moves the second count by 86400 and keeps the time of day, rolling over month and year ends and leap days |
| Dates.AddOneHour | main.py:53 | adding one hour moves the second count by 3600 and gives a valid date-time |
| Dates.SecondsInjective | main.py:61 | two valid date-times with the same second count are equal, so a difference of second counts measures the distance between date-times |
| TimeRange.Group | main.py:14 | a fixed-width digit group is taken exactly when the next characters are that many digits, and the scan continues after it |
| TimeRange.ScanFragment | main.py:14 | every group one fragment captures has its fixed width and only digits, and the year group is taken exactly when four digits follow |
| TimeRange.Scan | main.py:14-16 | the pattern matches exactly the tokens that start with `#`, and all groups have their fixed widths |
| TimeRange.ScanPrintToken | main.py:14 | printing any canonical pair of group tuples as a token and scanning it gives the same groups back |
| TimeRange.Normalize | main.py:20-31 | a lone four-digit year group becomes month and day and the year is cleared; the digits are kept in order, and the time groups are unchanged |
| TimeRange.Bounded | main.py:51-53 | adding to a date-time past year 9999 raises `OverflowError` |
| TimeRange.StartOf | main.py:36-41 | the start is a valid date-time or `ValueError` |
| TimeRange.EndOf | main.py:42-55 | the end is a valid date-time, or `ValueError` for a bad date, or `OverflowError` for one past year 9999 |
| TimeRange.Resolve | main.py:36-55 | two normalised fragments give a start and an end that are valid date-times, or `ValueError` or `OverflowError` |
| TimeRange.ParseTime | main.py:7-57 | the result is "no match" exactly when the token does not start with `#`; otherwise a span of valid date-times, or `ValueError` or `OverflowError` |
| TimeRange.StartDefaults | main.py:20-41 | the start's year, month and day come from the token when present, else from the reference date; hour, minute and second default to 0 |
| TimeRange.EndRules | main.py:42-55 | the end is chosen by the first matching rule: the end's full date, else its month and day in the reference year, else the start's date at the end's time, else start plus one day for a start date without hour, else start plus one hour for a start with an hour, else the start |
| TimeRange.ParseFullySpecified | main.py:14-43 | a token with two full date-times parses to exactly those date-times |
| TimeRange.ExampleDateRange | main.py:7-57 | `#20250601-20250603` runs from 2025-06-01 00:00 to 2025-06-03 00:00 |
| TimeRange.ExampleNoGroups | main.py:14-55 | `#abc` matches with every group empty and gives a zero-length span at midnight of the reference date |
| TimeRange.ExampleBareClockIsDate | main.py:20-41 | `#0900-1030` reads `0900` as month 09, day 00 and raises `ValueError` |
| TimeRange.DayZeroRaises | main.py:20-41 | a start fragment made only of the year group `0900` raises `ValueError`, whatever the end |
| Duration.TruncDiv | main.py:61 | `int(x / 60)` truncates toward zero: the quotient times the divisor lies between 0 and the dividend, within one divisor |
| Duration.TruncDivExact | main.py:61 | an exact multiple of 60 seconds gives its number of minutes |
| Duration.ClockToken | main.py:60 | the rewritten token always starts with `#`, so it always matches |
| Duration.TimeDelta | main.py:59-61 | the result is decimal integer text, or the `ValueError` or `OverflowError` of the parse |
| Duration.SpanMinutes | main.py:61 | a parsed span gives integer text, and a parse exception passes through unchanged |
| Duration.TimeDeltaOfClockRange | main.py:59-61 | for `hhmm-HHMM` the result is defined exactly when both are valid clock times, and then it is `(HH*60+MM) - (hh*60+mm)` |
| Duration.TimeDeltaOfSingleClock | main.py:59-61 | a single valid clock time gives `"60"`, the one-hour default end, except at the last hour of year 9999 |
| Duration.ExampleNinetyMinutes | main.py:59-61 | `0900-1030` gives `"90"` |
| Json.Lookup | main.py:129-130 | a key is found exactly when some member has it, and the value is that of the last member with that key |
| Json.Keys | main.py:139 | a dictionary iterates over its distinct keys, each once |
| Json.ToMapLookup | main.py:129 | the dictionary built from an object agrees with the last-binding lookup on every key |
| Json.ToMapKeys | main.py:129 | the dictionary's key set is the set of keys iterated over |
| Json.ToText | main.py:92 | `str(v)` of a string is the string itself, and of an integer its decimal text; a list prints in brackets and a dictionary in braces |
| Json.Repr | main.py:92 | `repr` of a list or dictionary is bracketed or braced, and is never empty |
| Json.Index | main.py:158-159 | `v[k]` is the member's value, `KeyError` for a missing key, `TypeError` for a non-dictionary |
| Json.Iterate | main.py:83 | iterating a string gives its characters, a list its items, a dictionary its keys; anything else raises `TypeError` |
| Json.Member | main.py:85 | `x in v` is substring test on a string, element test on a list, key test on a dictionary, and `TypeError` otherwise |
| Template.Classify | main.py:66-79 | a body is a `TID[...]` placeholder exactly when it starts with `TID[` and ends with `]`; otherwise plain unless it starts with `FOR[` and ends with `]`; only such a `FOR` body can raise, and then only `ValueError` or `IndexError`; a `FOR` format never ends in `]` |
| Template.ClassifyRoundTrip | main.py:66-79 | printing a placeholder and classifying the text gives the placeholder back |
| Template.PlainText | main.py:100 | a missing key gives the empty text, and a string value gives itself |
| Template.Minutes | main.py:69-70 | a `TID` value gives integer text; a value that is not a string raises `AttributeError` |
| Template.Subst | main.py:65-100 | a plain body gives the plain lookup; a `TID[k]` body with `k` present gives `time_delta` of the bound value, and a `FOR[k][fmt]` body with `k` present gives the loop over the bound value; either with a missing key falls back to that same plain lookup of the whole body; a malformed `FOR` body raises |
| Template.Last | main.py:85 | `d[-1]` is the last character or item, `IndexError` when empty, `KeyError` for a dictionary, `TypeError` otherwise |
| Template.FieldTexts | main.py:92 | field `i` of a row is `str(d[i])` |
| Template.ExpandItem | main.py:84-98 | with the skip flag, a row whose last field mentions `#ignore` gives nothing; any other row gives one rendered line |
| Template.ExpandItems | main.py:83-98 | the loop succeeds only when every row has a last element to test for `#ignore`, and its text, when not empty, ends with a newline |
| Template.Expand | main.py:83 | looping over a list expands its rows in order; looping over a value that is not a string, list or dictionary raises `TypeError` |
| Template.Line | main.py:87-98 | every rendered row ends with a newline |
| Template.Slot | main.py:92 | `<i>` becomes field `i`, or nothing when the row is shorter |
| Template.SlotDigits | main.py:89 | `findall('<(\d)>')` finds only digits |
| Template.DurationKeys | main.py:94 | `findall('TID\[(\d{4}-\d{4})\]')` finds keys of nine characters |
| Template.ReplaceDurations | main.py:95-96 | rewriting the durations raises only the exceptions of `time_delta` |
| Template.BodyEnd | main.py:102 | a placeholder is a `{`, a non-empty body without `}`, then the first `}` |
| Template.FillAllIsFill | main.py:89-92 | replacing each distinct `<i>` in turn fills every slot in one left-to-right pass, when the fields hold no `<` |
| Template.NoteNeedsTid | main.py:97 | a line without `TID[` contains no `(TID[]m)` to replace |
| Template.LinePlain | main.py:87-98 | a row whose filled format contains no `TID[` renders as the filled format plus a newline |
| Template.LineOfFill | main.py:87-98 | with a format whose `<` all open slots and fields without `<`, a row's line is its filled format with the durations and then the note replaced |
| Template.DurationKeysHead | main.py:94 | a `TID[hhmm-HHMM]` at the start of a text is found first, with its key |
| Template.DurationKeysAfter | main.py:94 | text in which no duration starts adds no keys |
| Template.LineDuration | main.py:87-98 | a row whose filled format holds one `TID[hhmm-HHMM]` and no other `TID[` renders with the duration replaced by `time_delta` of its key, plus a newline; if `time_delta` raises, the row raises the same exception |
| Template.LineNote | main.py:87-98 | a row whose filled format holds `(TID[]m)` and no other `TID[` renders with the note replaced by `(外部利用)`, plus a newline |
| Template.Kept | main.py:85-86 | the rows kept are rows of the list |
| Template.ExpandReference | main.py:81-99 | a `FOR` loop renders exactly the kept rows in order, one filled line each |
| Template.FormatString | main.py:63-102 | a template without `{` comes back unchanged |
| Template.FormatUnchanged | main.py:102 | a template with no placeholder comes back unchanged |
| Template.FormatWithoutBraces | main.py:102 | a template without `{` or without `}` comes back unchanged |
| Template.FormatLiteralPrefix | main.py:102 | text before the first `{` is copied unchanged |
| Template.NoRescan | main.py:102 | the substituted text of a placeholder is not scanned again; scanning resumes after its `}` |
| Template.FormatPlaceholderHead | main.py:65-102 | a leading placeholder is replaced by its substitution, followed by the rest of the template rendered |
| Template.FormatElapsed | main.py:67-70 | a leading `{TID[k]}` with `k` present is replaced by `time_delta` of the bound string, or raises what it raises (`AttributeError` for a value that is not a string), and the rest of the template follows |
| Template.FormatEach | main.py:71-99 | a leading `{FOR[k][fmt]}` with `k` bound to a list of rows that need only slot filling is replaced by one filled line per kept row, and the rest of the template follows |
| Template.FormatSingleRow | main.py:71-99 | a template that is one loop placeholder over a single row renders as that row's filled format and a newline |
| Template.ExampleLoop | main.py:63-102 | `{FOR[items][<0>-<1>]}` with `items` bound to `[["a", "b"]]` renders as `a-b` and a newline |
| Template.ExampleElapsed | main.py:59-70 | `{TID[k]}` with `k` bound to `0900-1030` renders as `90` |
| Events.Describe | main.py:111-116 | the description starts with the rendered text and is just that when there are no links and no memo |
| Events.DescribeLines | main.py:111-116 | the description's lines are the lines of the rendered text, then those of the link text if it is not empty, then those of the memo if it is not empty; a memo that starts with a newline, as every memo from line 165 does, contributes an empty line before its text |
| Events.GenerateEvent | main.py:104-122 | an event is made exactly for a `#`-prefixed string, with the given title, the composed description and the parsed span; a parse exception propagates |
| Events.Listed | main.py:172-174 | an event is added when one was made, nothing otherwise |
| Events.ListEvents | main.py:175-181 | a list of date values gives at most one event per element |
| Events.ListEventSpans | main.py:175-181 | a list of parseable dates gives one event per element, in order, numbered ` (k)` from 1 when there is more than one |
| Events.DateEvents | main.py:169-181 | a string date gives one event when it is a `#`-prefixed token whose times parse (that span, the plain title and the shared description), none when it is not a token, and the parse's exception otherwise; a list date gives what its elements give, at most one event each; any other value gives no events |
| Events.DateEventsOfList | main.py:174-181 | a list date whose elements all parse gives one event per element, event `j` titled with ` (j+1)` when the list has more than one element and carrying element `j`'s span |
| Events.Get | main.py:130 | `data_map[k]` is the bound value, or `KeyError` |
| Events.LinkLine | main.py:158-159 | with a `pdf` entry and a page dictionary that has the key, the line is the key, `": "`, the PDF link, `#page=` and `str` of the page; a missing `link` raises `KeyError`, a link that is not a string `TypeError`; no other exception arises |
| Events.LinkLines | main.py:155-160 | there are at most as many link lines as link keys |
| Events.PresentLinks | main.py:156-158 | the keys kept are link keys the page table mentions |
| Events.LinkLinesPresent | main.py:155-160 | with a page dictionary and a string link there is one line per mentioned key, in order, each the key, `": "`, the link, `#page=` and `str` of its page; with a missing link or one that is not a string, the first mentioned key raises `KeyError` or `TypeError`; with no key mentioned there are no lines |
| Events.Memo | main.py:162-167 | the memo is a newline plus the stored text; a missing key at any level gives the empty memo; a wrongly shaped value raises `TypeError` |
| Events.EntryEvents | main.py:146-149 | a format entry whose key is not among the details gives no events |
| Events.ExamEvents | main.py:146-149 | when no format key is among the details there are no events, and a success means every format entry succeeded |
| Events.AbsentKeysSkipped | main.py:146-149 | dropping the format entries whose key is absent does not change the events |
| Events.Merge | main.py:141-143 | updating with the details keeps the old keys, adds theirs, and binds the exam type key to the exam type's name |
| Events.Items | main.py:139 | the exam types come in document order, each once, with its last bound details |
| Events.ThreadedBinding | main.py:129-143 | after some exam types, a key is bound to its last binding among the university and those exam types' details |
| Events.ThreadedExamType | main.py:143 | after some exam types, the exam type key holds the latest one's name |
| Events.ExamLoop | main.py:139-143 | the loop succeeds only when every exam type's details are a dictionary, and the first exam type's details not being one raises `TypeError` |
| Events.ExamLoopThreaded | main.py:139-181 | the exam-type loop equals a reference that renders each exam type with the university dictionary updated by all exam types up to it |
| Events.UniversityCalendar | main.py:126-136 | a calendar has the university's name, `url` and fixed product id, and is written to the name plus `.ics` |
| Events.Written | main.py:126-186 | calendars are written in order until the first exception, which is the failure reported |
| Events.GenerateIcs | main.py:124-186 | one calendar per university, in order, up to the first university whose processing raises, and that exception is reported |

## Left out

- Calendar and event objects of the `icalendar` library, `cal.add`,
  `to_ical` and writing the `.ics` files. Events and calendars are plain
  records, and a run returns the calendars it would write.
- Loading the JSON files and the command-line arguments. They are I/O. The
  model starts from the parsed values.
- The `print` diagnostic for an unparseable time. Every `#`-prefixed token
  parses or raises, so it cannot be reached.
- `datetime.today()`. The reference date is a parameter, and one reference
  date serves the whole run.
- The regular expression engine. Each pattern is a hand-written scanner with
  the same greedy behaviour. `\d` is taken as ASCII `0`-`9`, while Python also
  accepts other Unicode decimal digits.
- The iteration order of `set(...)` over the `<i>` and `TID[...]` matches.
  The model visits the matches in order of first occurrence. The order does
  not change the filled text when every `<` of the format opens a slot `<d>`
  and no field contains `<` (`Template.FillAllIsFill`). Formats or fields
  outside these two conditions are not covered by that result.
- Floating-point JSON numbers. Only integers, strings, booleans, null, lists
  and objects are modelled.
- `repr` escaping. Strings inside lists and dictionaries are printed in single
  quotes without escaping.
- JSON objects with repeated keys keep the last value at the place of the
  first occurrence, as `json.load` does, for lookup, keys and iteration.
- Json.Repr: prints every binding of an object that has repeated keys,
  whereas the dictionary `json.load` builds holds, and prints, only one.
- A format entry is a record with a key, a title, a description and link keys.
  A missing `title` (a `KeyError` in the program) or a non-list `link` is not
  modelled.
- The data file is taken to be a list of universities.
- Events.Merge: details that are not a dictionary raise `TypeError`. Python's
  `dict.update` also accepts a list of pairs, and raises `ValueError` for some
  other values.
- Events.LinkLines: its own contract only bounds the number of lines. The
  lines and errors are described by `Events.LinkLinesPresent`, for a `pdf`
  entry whose page table for the exam type is a dictionary. Other shapes of
  `pdf` raise as the model's indexing does, but no lemma states them.
- Template.ExpandReference: states the whole loop only for a format whose
  `<` all open slots, fields without `<`, and filled lines without `TID[`.
  Lines with one duration or the note are stated by `Template.LineDuration`
  and `Template.LineNote`. Lines with several durations, or a duration and the
  note together, are not stated.
- Template.PlainText: the contract pins the result only for a missing key and
  for a string value. Other values print through `Json.ToText`.
- Duration.TimeDeltaOfSingleClock: excludes the last hour of 9999-12-31, where
  adding one hour overflows.
- TimeRange.ParseTime: the end-date rules are stated by
  `TimeRange.EndRules` and `TimeRange.StartDefaults` for the tokens that
  parse. The exact conditions for `ValueError` are those of `Dates.Make`.
- Events.ListEventSpans: describes lists whose elements all parse. A list
  with a failing element stops at the first exception, as `Events.Written`
  states for the calendars.

## Behaviour that differs from the natural reading

Each of these follows the code.

- `#0900-1030` does not mean 09:00 to 10:30. A lone group of four digits is
  the year group, which becomes month 09 and day 00, and `datetime` raises
  `ValueError` (`TimeRange.ExampleBareClockIsDate`). A clock range needs the
  `T`, as in `#T0900-T1030`, which is the form `time_delta` builds.
- `#20250615` reads as year 2025, month 06 and day 15, because the four-digit
  year group is taken first (`TimeRange.StartDefaults`).
- `#abc` is not an error. Every group is optional, so the token matches with
  every group empty, and the event is zero-length at midnight of the reference
  date (`TimeRange.ExampleNoGroups`).
- A `TID[key]` or `FOR[key][format]` placeholder whose key is missing does
  not expand to nothing. It falls back to looking up the whole body as a
  plain key, which normally gives the empty text (`Template.Subst`).

=== FILE: dates.dfy ===
/** Naive date-times of the proleptic Gregorian calendar, as Python's
    `datetime` class holds them (no time zone, whole seconds).

    `Seconds` counts the seconds since 0001-01-01T00:00:00 the way
    `datetime.toordinal()` counts days; adding a `timedelta` in Python means
    moving to the date-time whose count is that much larger.  `AddOneDay`
    and `AddOneHour` are written with explicit month, year and leap-year
    rollover and proved to agree with that count, and `SecondsInjective`
    shows the count pins a valid date-time down uniquely.
 */
module Dates {
  import opened Outcomes

  datatype DateTime = DateTime(year: int, month: int, day: int, hour: int, minute: int, second: int)

  predicate IsLeapYear(y: int) {
    y % 4 == 0 && (y % 100 != 0 || y % 400 == 0)
  }

  function DaysInMonth(y: int, m: int): int
    requires 1 <= m <= 12
  {
    if m == 2 then (if IsLeapYear(y) then 29 else 28)
    else if m == 4 || m == 6 || m == 9 || m == 11 then 30
    else 31
  }

  function DaysInYear(y: int): int {
    if IsLeapYear(y) then 366 else 365
  }

  /** A real date-time: year at least 1, month, day and clock fields in range. */
  predicate WellFormed(dt: DateTime) {
    && dt.year >= 1
    && 1 <= dt.month <= 12
    && 1 <= dt.day <= DaysInMonth(dt.year, dt.month)
    && 0 <= dt.hour < 24
    && 0 <= dt.minute < 60
    && 0 <= dt.second < 60
  }

  const MaxYear := 9999

  /** The date-times Python's `datetime` accepts: well-formed, up to year 9999. */
  predicate InRange(dt: DateTime) {
    WellFormed(dt) && dt.year <= MaxYear
  }

  /** Building a date-time from its six fields: raises `ValueError` when any
      field is out of range. */
  function Make(year: int, month: int, day: int, hour: int, minute: int, second: int): (r: Result<DateTime>)
    ensures r.Ok? <==> InRange(DateTime(year, month, day, hour, minute, second))
    ensures r.Ok? ==> r.value == DateTime(year, month, day, hour, minute, second)
    ensures r.Raised? ==> r.error == ValueError
  {
    var dt := DateTime(year, month, day, hour, minute, second);
    if InRange(dt) then Ok(dt) else Raised(ValueError)
  }

  /** Days in the years before `y` (Python's `_days_before_year`). */
  function DaysBeforeYear(y: int): int
    requires y >= 1
  {
    var n := y - 1;
    n * 365 + n / 4 - n / 100 + n / 400
  }

  /** Days in the months of year `y` before month `m` (`_days_before_month`). */
  function DaysBeforeMonth(y: int, m: int): int
    requires 1 <= m <= 12
  {
    var table := [0, 31, 59, 90, 120, 151, 181, 212, 243, 273, 304, 334];
    table[m - 1] + (if m > 2 && IsLeapYear(y) then 1 else 0)
  }

  /** The proleptic Gregorian ordinal of a date: 0001-01-01 is day 1. */
  function DayNumber(dt: DateTime): int
    requires WellFormed(dt)
  {
    DaysBeforeYear(dt.year) + DaysBeforeMonth(dt.year, dt.month) + dt.day
  }

  function TimeOfDay(dt: DateTime): int {
    dt.hour * 3600 + dt.minute * 60 + dt.second
  }

  /** Seconds since 0001-01-01T00:00:00 minus one day. */
  function Seconds(dt: DateTime): int
    requires WellFormed(dt)
  {
    DayNumber(dt) * 86400 + TimeOfDay(dt)
  }

  lemma DivStep(n: nat, d: int)
    requires d > 0
    ensures (n + 1) / d == n / d + (if (n + 1) % d == 0 then 1 else 0)
  {
    var q, r := n / d, n % d;
    var q', r' := (n + 1) / d, (n + 1) % d;
    if r + 1 < d {
      SplitUnique(q', r', q, r + 1, d);
    } else {
      assert (q + 1) * d == q * d + d;
      SplitUnique(q', r', q + 1, 0, d);
    }
  }

  /** The closed form of `DaysBeforeYear` grows by exactly one year's length. */
  lemma DaysBeforeYearStep(y: int)
    requires y >= 1
    ensures DaysBeforeYear(y + 1) == DaysBeforeYear(y) + DaysInYear(y)
  {
    var n := y - 1;
    DivStep(n, 4);
    DivStep(n, 100);
    DivStep(n, 400);
    assert DaysBeforeYear(y + 1) == y * 365 + y / 4 - y / 100 + y / 400;
    assert y * 365 == n * 365 + 365;
  }

  lemma {:induction false} DaysBeforeYearGrows(y1: int, y2: int)
    requires 1 <= y1 <= y2
    ensures DaysBeforeYear(y1) + 365 * (y2 - y1) <= DaysBeforeYear(y2)
    decreases y2 - y1
  {
    if y1 < y2 {
      DaysBeforeYearStep(y1);
      DaysBeforeYearGrows(y1 + 1, y2);
    }
  }

  lemma DaysBeforeMonthStep(y: int, m: int)
    requires 1 <= m < 12
    ensures DaysBeforeMonth(y, m + 1) == DaysBeforeMonth(y, m) + DaysInMonth(y, m)
  {
  }

  lemma DaysBeforeMonthGrows(y: int, m1: int, m2: int)
    requires 1 <= m1 < m2 <= 12
    ensures DaysBeforeMonth(y, m1) + DaysInMonth(y, m1) <= DaysBeforeMonth(y, m2)
  {
  }

  lemma DaysInYearSplit(y: int)
    ensures DaysBeforeMonth(y, 12) + DaysInMonth(y, 12) == DaysInYear(y)
  {
  }

  /** The next calendar day at the same clock time: rolls over month ends,
      year ends and February 29th of leap years. */
  function AddOneDay(dt: DateTime): (r: DateTime)
    requires WellFormed(dt)
    ensures WellFormed(r)
    ensures Seconds(r) == Seconds(dt) + 86400
    ensures TimeOfDay(r) == TimeOfDay(dt)
  {
    if dt.day < DaysInMonth(dt.year, dt.month) then
      dt.(day := dt.day + 1)
    else if dt.month < 12 then
      DaysBeforeMonthStep(dt.year, dt.month);
      dt.(month := dt.month + 1, day := 1)
    else
      DaysBeforeYearStep(dt.year);
      DaysInYearSplit(dt.year);
      dt.(year := dt.year + 1, month := 1, day := 1)
  }

  /** One hour later: past 23 o'clock the date moves to the next day. */
  function AddOneHour(dt: DateTime): (r: DateTime)
    requires WellFormed(dt)
    ensures WellFormed(r)
    ensures Seconds(r) == Seconds(dt) + 3600
  {
    if dt.hour < 23 then dt.(hour := dt.hour + 1)
    else AddOneDay(dt).(hour := 0)
  }

  lemma {:induction false} MulAtLeast(x: int, b: int)
    requires x >= 1 && b > 0
    ensures x * b >= b
    decreases x
  {
    if x > 1 {
      MulAtLeast(x - 1, b);
      assert x * b == (x - 1) * b + b;
    }
  }

  /** Quotient and remainder are unique. */
  lemma SplitUnique(q1: int, r1: int, q2: int, r2: int, b: int)
    requires b > 0 && 0 <= r1 < b && 0 <= r2 < b
    requires q1 * b + r1 == q2 * b + r2
    ensures q1 == q2 && r1 == r2
  {
    if q1 < q2 {
      assert q2 * b == q1 * b + (q2 - q1) * b;
      MulAtLeast(q2 - q1, b);
    } else if q2 < q1 {
      assert q1 * b == q2 * b + (q1 - q2) * b;
      MulAtLeast(q1 - q2, b);
    }
  }

  lemma DayNumberWithinYear(dt: DateTime)
    requires WellFormed(dt)
    ensures DaysBeforeYear(dt.year) < DayNumber(dt) <= DaysBeforeYear(dt.year + 1)
  {
    DaysBeforeYearStep(dt.year);
    if dt.month < 12 {
      DaysBeforeMonthGrows(dt.year, dt.month, 12);
    }
    DaysInYearSplit(dt.year);
  }

  lemma DayNumberInjective(a: DateTime, b: DateTime)
    requires WellFormed(a) && WellFormed(b)
    requires DayNumber(a) == DayNumber(b)
    ensures a.year == b.year && a.month == b.month && a.day == b.day
  {
    DayNumberWithinYear(a);
    DayNumberWithinYear(b);
    if a.year < b.year {
      DaysBeforeYearGrows(a.year + 1, b.year);
      assert false;
    } else if b.year < a.year {
      DaysBeforeYearGrows(b.year + 1, a.year);
      assert false;
    }
    if a.month < b.month {
      DaysBeforeMonthGrows(a.year, a.month, b.month);
      assert false;
    } else if b.month < a.month {
      DaysBeforeMonthGrows(a.year, b.month, a.month);
      assert false;
    }
  }

  /** Distinct valid date-times have distinct second counts, so the count
      determines the date-time: `AddOneDay`/`AddOneHour` return the one and
      only valid date-time a day/an hour later. */
  lemma SecondsInjective(a: DateTime, b: DateTime)
    requires WellFormed(a) && WellFormed(b)
    requires Seconds(a) == Seconds(b)
    ensures a == b
  {
    SplitUnique(DayNumber(a), TimeOfDay(a), DayNumber(b), TimeOfDay(b), 86400);
    DayNumberInjective(a, b);
    SplitUnique(a.hour * 60 + a.minute, a.second, b.hour * 60 + b.minute, b.second, 60);
    SplitUnique(a.hour, a.minute, b.hour, b.minute, 60);
  }
}

=== FILE: duration.dfy ===
/** The duration helper `time_delta` (main.py:59-61): a bare clock range
    such as `0900-1030` is rewritten as the token `#T0900-T1030`, parsed, and
    the whole minutes between start and end are rendered as decimal text.
    Python divides the seconds by 60 and truncates toward zero; Dafny's
    `/` is Euclidean, so `TruncDiv` spells the truncation out.
 */
module Duration {
  import opened Outcomes
  import opened Text
  import opened Dates
  import opened TimeRange

  /** Integer division rounding toward zero, as truncating a float quotient
      does for a positive divisor. */
  function TruncDiv(a: int, b: int): (q: int)
    requires b > 0
    ensures a >= 0 ==> 0 <= q * b <= a < q * b + b
    ensures a < 0 ==> q * b - b < a <= q * b <= 0
  {
    if a >= 0 then
      DivBounds(a, b);
      a / b
    else
      var p := (-a) / b;
      DivBounds(-a, b);
      assert (-p) * b == -(p * b);
      -p
  }

  lemma DivBounds(n: nat, b: int)
    requires b > 0
    ensures 0 <= (n / b) * b <= n < (n / b) * b + b
  {
    var q, r := n / b, n % b;
    assert n == q * b + r && 0 <= r < b;
    if q > 0 {
      MulAtLeast(q, b);
    }
  }

  lemma TruncDivExact(k: int)
    ensures TruncDiv(k * 60, 60) == k
  {
    var q := TruncDiv(k * 60, 60);
    if k * 60 >= 0 {
      assert q * 60 <= k * 60 < q * 60 + 60;
    } else {
      assert q * 60 - 60 < k * 60 <= q * 60;
    }
  }

  /** The token a clock range becomes: a `#`, then the `-`-separated parts
      of the range, each preceded by `T`. */
  function ClockToken(text: string): (token: string)
    ensures IsToken(token)
  {
    var parts := SplitOn(text, '-');
    "#" + Join("-", seq(|parts|, i requires 0 <= i < |parts| => "T" + parts[i]))
  }

  /** The minutes from the start to the end of a clock range, in decimal. */
  function TimeDelta(text: string, today: DateTime): (r: Result<string>)
    requires InRange(today)
    ensures r.Ok? ==> ParseInt(r.value).Some?
    ensures r.Raised? ==> r.error == ValueError || r.error == OverflowError
  {
    SpanMinutes(ParseTime(ClockToken(text), today))
  }

  /** The whole minutes of a parsed span, as decimal text; a parse error
      propagates. */
  function SpanMinutes(parsed: Result<Option<Span>>): (r: Result<string>)
    requires parsed.Ok? ==> parsed.value.Some? && InRange(parsed.value.value.start) && InRange(parsed.value.value.end)
    ensures r.Ok? ==> ParseInt(r.value).Some?
    ensures r.Raised? ==> parsed == Raised(r.error)
  {
    var parsed :- parsed;
    var span := parsed.value;
    var minutes := TruncDiv(Seconds(span.end) - Seconds(span.start), 60);
    IntToStringRoundTrip(minutes);
    Ok(IntToString(minutes))
  }

  function Hour(x: string): nat
    requires |x| == 4 && AllDigits(x)
  {
    DigitsValue(x[..2])
  }

  function Minute(x: string): nat
    requires |x| == 4 && AllDigits(x)
  {
    DigitsValue(x[2..])
  }

  predicate ValidClock(x: string) {
    |x| == 4 && AllDigits(x) && Hour(x) < 24 && Minute(x) < 60
  }

  lemma ClockTokenOfRange(x: string, y: string)
    requires |x| == 4 && AllDigits(x) && |y| == 4 && AllDigits(y)
    ensures ClockToken(x + "-" + y) == "#" + ("T" + x) + ("-" + "T" + y)
  {
    assert '-' !in x && '-' !in y by {
      assert !IsDigit('-');
    }
    SplitOnOnce(x, y, '-');
    var parts := SplitOn(x + "-" + y, '-');
    var ts := seq(|parts|, i requires 0 <= i < |parts| => "T" + parts[i]);
    assert ts == ["T" + x, "T" + y];
    assert Join("-", ts) == "T" + x + "-" + Join("-", ["T" + y]);
  }

  lemma ScanClockRange(x: string, y: string)
    requires |x| == 4 && AllDigits(x) && |y| == 4 && AllDigits(y)
    ensures Scan(ClockToken(x + "-" + y))
            == Some((Groups(None, None, Some(x[..2]), Some(x[2..]), None),
                     Groups(None, None, Some(y[..2]), Some(y[2..]), None)))
  {
    ClockTokenOfRange(x, y);
    var token := "#" + ("T" + x) + ("-" + "T" + y);
    assert token[1..] == "T" + x + ("-" + "T" + y);
    ScanFragmentClock(x, "-" + "T" + y);
    assert Skip("-" + "T" + y, '-') == "T" + y + "";
    ScanFragmentClock(y, "");
  }

  lemma ResolveClockRange(x: string, y: string, today: DateTime)
    requires InRange(today)
    requires |x| == 4 && AllDigits(x) && |y| == 4 && AllDigits(y)
    ensures
      var st := Normalize(Groups(None, None, Some(x[..2]), Some(x[2..]), None));
      var en := Normalize(Groups(None, None, Some(y[..2]), Some(y[2..]), None));
      var r := Resolve(st, en, today);
      && (r.Ok? <==> ValidClock(x) && ValidClock(y))
      && (r.Ok? ==> Seconds(r.value.end) - Seconds(r.value.start)
                    == ((Hour(y) * 60 + Minute(y)) - (Hour(x) * 60 + Minute(x))) * 60)
      && (r.Raised? ==> r.error == ValueError)
  {
  }

  /** A span of exactly `k` minutes gives `k`. */
  lemma MinutesOfSpan(span: Span, k: int)
    requires InRange(span.start) && InRange(span.end)
    requires Seconds(span.end) - Seconds(span.start) == k * 60
    ensures SpanMinutes(Ok(Some(span))) == Ok(IntToString(k))
  {
    var d := Seconds(span.end) - Seconds(span.start);
    TruncDivExact(k);
    assert TruncDiv(d, 60) == k;
  }

  /** A clock token that parses to a span of exactly `k` minutes gives `k`. */
  lemma TimeDeltaOfSpan(text: string, today: DateTime, span: Span, k: int)
    requires InRange(today) && ParseTime(ClockToken(text), today) == Ok(Some(span))
    requires Seconds(span.end) - Seconds(span.start) == k * 60
    ensures TimeDelta(text, today) == Ok(IntToString(k))
  {
    MinutesOfSpan(span, k);
    assert TimeDelta(text, today) == SpanMinutes(Ok(Some(span)));
  }

  /** A clock token that fails to parse makes `time_delta` raise the same error. */
  lemma TimeDeltaRaised(text: string, today: DateTime)
    requires InRange(today) && ParseTime(ClockToken(text), today).Raised?
    ensures TimeDelta(text, today) == Raised(ParseTime(ClockToken(text), today).error)
  {
  }

  /** A range of two clocks gives the end's minute of the day less the
      start's, in decimal (negative when the end is earlier), and raises
      `ValueError` exactly when either clock is not a real time of day. */
  lemma TimeDeltaOfClockRange(x: string, y: string, today: DateTime)
    requires InRange(today)
    requires |x| == 4 && AllDigits(x) && |y| == 4 && AllDigits(y)
    ensures TimeDelta(x + "-" + y, today).Ok? <==> ValidClock(x) && ValidClock(y)
    ensures ValidClock(x) && ValidClock(y) ==>
      TimeDelta(x + "-" + y, today) == Ok(IntToString((Hour(y) * 60 + Minute(y)) - (Hour(x) * 60 + Minute(x))))
  {
    var r := ClockRangeResolved(x, y, today);
    var k := (Hour(y) * 60 + Minute(y)) - (Hour(x) * 60 + Minute(x));
    if r.Ok? {
      TimeDeltaOfSpan(x + "-" + y, today, r.value, k);
    } else {
      TimeDeltaRaised(x + "-" + y, today);
    }
  }

  /** The parse of the clock token of `hhmm-HHMM`, resolved. */
  lemma ClockRangeResolved(x: string, y: string, today: DateTime) returns (r: Result<Span>)
    requires InRange(today)
    requires |x| == 4 && AllDigits(x) && |y| == 4 && AllDigits(y)
    ensures r.Ok? <==> ValidClock(x) && ValidClock(y)
    ensures r.Ok? ==> ParseTime(ClockToken(x + "-" + y), today) == Ok(Some(r.value))
    ensures r.Ok? ==> Seconds(r.value.end) - Seconds(r.value.start)
                      == ((Hour(y) * 60 + Minute(y)) - (Hour(x) * 60 + Minute(x))) * 60
    ensures r.Raised? ==> ParseTime(ClockToken(x + "-" + y), today) == Raised(r.error)
  {
    var a := Groups(None, None, Some(x[..2]), Some(x[2..]), None);
    var b := Groups(None, None, Some(y[..2]), Some(y[2..]), None);
    ScanClockRange(x, y);
    ParseScanned(ClockToken(x + "-" + y), a, b, today);
    ResolveClockRange(x, y, today);
    r := Resolve(Normalize(a), Normalize(b), today);
  }

  lemma ScanSingleClock(x: string)
    requires |x| == 4 && AllDigits(x)
    ensures Scan(ClockToken(x))
            == Some((Groups(None, None, Some(x[..2]), Some(x[2..]), None),
                     Groups(None, None, None, None, None)))
  {
    assert '-' !in x by {
      assert !IsDigit('-');
    }
    SplitOnNone(x, '-');
    var ts := seq(1, i requires 0 <= i < 1 => "T" + [x][i]);
    assert ts == ["T" + x];
    var token := ClockToken(x);
    assert token[1..] == "T" + x + "";
    ScanFragmentClock(x, "");
    ScanFragmentEmpty("");
  }

  /** A single clock with no end: the span is one hour, so the duration is
      `"60"`, unless the hour after it would fall beyond 9999-12-31. */
  lemma TimeDeltaOfSingleClock(x: string, today: DateTime)
    requires InRange(today) && ValidClock(x)
    requires today.year < MaxYear || today.month < 12 || today.day < 31 || Hour(x) < 23
    ensures TimeDelta(x, today) == Ok("60")
  {
    var span := SingleClockResolved(x, today);
    TimeDeltaOfSpan(x, today, span, 60);
    SixtyText();
  }

  /** The parse of the clock token of a lone `hhmm`: one hour from that time. */
  lemma SingleClockResolved(x: string, today: DateTime) returns (span: Span)
    requires InRange(today) && ValidClock(x)
    requires today.year < MaxYear || today.month < 12 || today.day < 31 || Hour(x) < 23
    ensures ParseTime(ClockToken(x), today) == Ok(Some(span))
    ensures Seconds(span.end) - Seconds(span.start) == 60 * 60
  {
    ScanSingleClock(x);
    var a := Groups(None, None, Some(x[..2]), Some(x[2..]), None);
    ParseScanned(ClockToken(x), a, Groups(None, None, None, None, None), today);
    var r := Resolve(Normalize(a), Normalize(Groups(None, None, None, None, None)), today);
    assert r.Ok?;
    span := r.value;
  }

  lemma ClockValues()
    ensures Hour("0900") == 9 && Minute("0900") == 0
    ensures Hour("1030") == 10 && Minute("1030") == 30
  {
    assert "0900"[..2] == "09" && "0900"[2..] == "00";
    assert "1030"[..2] == "10" && "1030"[2..] == "30";
    DigitsValueTwo("09");
    DigitsValueTwo("00");
    DigitsValueTwo("10");
    DigitsValueTwo("30");
  }

  lemma NinetyMinutes(x: string, y: string, today: DateTime)
    requires InRange(today) && ValidClock(x) && ValidClock(y)
    requires (Hour(y) * 60 + Minute(y)) - (Hour(x) * 60 + Minute(x)) == 90
    ensures TimeDelta(x + "-" + y, today) == Ok("90")
  {
    TimeDeltaOfClockRange(x, y, today);
    NinetyText();
  }

  lemma SixtyText()
    ensures IntToString(60) == "60"
  {
  }

  lemma NinetyText()
    ensures IntToString(90) == "90"
  {
  }

  /** The worked example: from nine o'clock to half past ten is 90 minutes. */
  lemma ExampleNinetyMinutes(x: string, y: string, today: DateTime)
    requires InRange(today) && x == "0900" && y == "1030"
    ensures TimeDelta(x + "-" + y, today) == Ok("90")
  {
    ClockValues();
    NinetyMinutes(x, y, today);
  }
}

=== FILE: events.dfy ===
/** Event assembly: `generate_event` (main.py:104-122) and the loops of
    `generate_ics` (main.py:124-181) without the calendar library and the
    file output.  An event is a plain record; a calendar is the metadata
    the program sets plus its events in the order they are added.

    The dictionary `data_map` starts as a copy of the university and is
    updated in place for every exam type, so a field of an earlier exam
    type stays visible to later ones unless they rebind it.
 */
module Events {
  import opened Outcomes
  import opened Text
  import opened Dates
  import opened TimeRange
  import opened Json
  import opened Template

  datatype Event = Event(title: string, description: string, start: DateTime, end: DateTime)

  /** One entry of the format file: the key it looks for in an exam
      type's details, the title and description templates, and the link
      keys whose PDF pages are cited. */
  datatype Format = Format(key: string, title: string, desc: string, links: seq<string>)

  datatype Calendar = Calendar(
    fileName: string,
    name: string,
    description: string,
    relCalId: Value,
    prodId: string,
    events: seq<Event>)

  /** The outcome of a run: the calendars written, in order, and the
      exception that stopped the run, if any. */
  datatype Run = Run(written: seq<Calendar>, failed: Option<Error>)

  const NameKey: string := "\U{540D}\U{79F0}"
  const ExamTypeKey: string := "\U{5165}\U{8A66}\U{5F62}\U{5F0F}"
  const MemoKey: string := "\U{30E1}\U{30E2}"
  const CalendarWord: string := "\U{30AB}\U{30EC}\U{30F3}\U{30C0}\U{30FC}"
  const ProductId: string := "-//AutoGenerator//NONSGML v1.0//EN"

  /** The description: the rendered text, then the links and then the
      memo, each on a new line when it is not empty. */
  function Describe(desc: string, urlText: string, memo: string): (r: string)
    ensures urlText == "" && memo == "" ==> r == desc
    ensures StartsWith(r, desc)
  {
    var withLinks := if urlText != "" then desc + "\n" + urlText else desc;
    assert StartsWith(withLinks, desc) by { assert withLinks[..|desc|] == desc; }
    var r := if memo != "" then withLinks + "\n" + memo else withLinks;
    assert r[..|desc|] == withLinks[..|desc|];
    r
  }

  /** `generate_event`: an event for a `#`-prefixed string whose time
      parses, nothing for any other value.  Every `#`-prefixed string
      gets a span or an exception, so the "cannot parse" diagnostic is
      never reached. */
  function GenerateEvent(value: Value, title: string, urlText: string, memo: string, desc: string,
                         today: DateTime): (r: Result<Option<Event>>)
    requires InRange(today)
    ensures r == Ok(None) <==> !(value.Str? && IsToken(value.s))
    ensures r.Ok? && r.value.Some? ==>
              && value.Str?
              && ParseTime(value.s, today) == Ok(Some(Span(r.value.value.start, r.value.value.end)))
              && r.value.value.title == title
              && r.value.value.description == Describe(desc, urlText, memo)
    ensures r.Raised? ==> value.Str? && ParseTime(value.s, today) == Raised(r.error)
  {
    if value.Str? && IsToken(value.s) then
      var parsed :- ParseTime(value.s, today);
      match parsed
      case Some(span) => Ok(Some(Event(title, Describe(desc, urlText, memo), span.start, span.end)))
    else Ok(None)
  }

  /** At most one event, as a list. */
  function Listed(e: Result<Option<Event>>): (r: Result<seq<Event>>)
    ensures r.Ok? <==> e.Ok?
    ensures r.Ok? ==> r.value == (if e.value.Some? then [e.value.value] else [])
    ensures r.Raised? ==> r.error == e.error
  {
    match e
    case Raised(x) => Raised(x)
    case Ok(None) => Ok([])
    case Ok(Some(ev)) => Ok([ev])
  }

  /** The title of the `i`-th (0-based) of `n` dates: numbered from 1 when
      there is more than one. */
  function IndexedTitle(title: string, i: nat, n: nat): string {
    if n > 1 then title + " (" + IntToString(i + 1) + ")" else title
  }

  /** The outcome `generate_event` gives for each element of a list of
      dates, with the element's numbered title. */
  function Generated(vs: seq<Value>, title: string, urlText: string, memo: string, desc: string,
                     today: DateTime): (gs: seq<Result<Option<Event>>>)
    requires InRange(today)
    ensures |gs| == |vs|
  {
    seq(|vs|, k requires 0 <= k < |vs| => GenerateEvent(vs[k], IndexedTitle(title, k, |vs|), urlText, memo, desc, today))
  }

  /** The outcomes from index `i` on, collected in order: the events are
      appended one after another and the first exception ends the loop. */
  function Collected(gs: seq<Result<Option<Event>>>, i: nat): (r: Result<seq<Event>>)
    requires i <= |gs|
    ensures r.Ok? ==> |r.value| <= |gs| - i
    decreases |gs| - i
  {
    if i == |gs| then Ok([]) else Cat(Listed(gs[i]), Collected(gs, i + 1))
  }

  /** The events of a list of dates: one `generate_event` per element, in
      order. */
  function ListEvents(vs: seq<Value>, title: string, urlText: string, memo: string, desc: string,
                      today: DateTime): (r: Result<seq<Event>>)
    requires InRange(today)
    ensures r.Ok? ==> |r.value| <= |vs|
  {
    Collected(Generated(vs, title, urlText, memo, desc, today), 0)
  }

  /** The events of one date value: a string gives at most one, a list one
      per `#`-prefixed element, anything else none. */
  function DateEvents(v: Value, title: string, urlText: string, memo: string, desc: string,
                      today: DateTime): (r: Result<seq<Event>>)
    requires InRange(today)
    ensures v.Str? && r.Ok? ==> |r.value| == (if IsToken(v.s) then 1 else 0)
    ensures v.Str? && r.Ok? && |r.value| == 1 ==>
              && ParseTime(v.s, today) == Ok(Some(Span(r.value[0].start, r.value[0].end)))
              && r.value[0].title == title
              && r.value[0].description == Describe(desc, urlText, memo)
    ensures v.Str? && r.Raised? ==> IsToken(v.s) && ParseTime(v.s, today) == Raised(r.error)
    ensures v.Arr? ==> r == ListEvents(v.items, title, urlText, memo, desc, today)
    ensures v.Arr? && r.Ok? ==> |r.value| <= |v.items|
    ensures !v.Str? && !v.Arr? ==> r == Ok([])
  {
    if v.Str? then Listed(GenerateEvent(v, title, urlText, memo, desc, today))
    else if v.Arr? then ListEvents(v.items, title, urlText, memo, desc, today)
    else Ok([])
  }

  // ---------------------------------------------------------------------
  // Links and memo

  /** `data_map[k]`. */
  function Get(dm: Data, k: string): (r: Result<Value>)
    ensures r.Ok? <==> k in dm
    ensures r.Ok? ==> r.value == dm[k]
    ensures r.Raised? ==> r.error == KeyError
  {
    if k in dm then Ok(dm[k]) else Raised(KeyError)
  }

  /** The page table of an exam type: the `page` member of the `pdf`
      object, indexed by the exam type. */
  function Pages(dm: Data, examType: string): Result<Value> {
    var pdf :- Get(dm, "pdf");
    var page :- Index(pdf, "page");
    Index(page, examType)
  }

  /** One link line: the key, a colon, the PDF link and a `#page=` anchor
      holding the printed page number the page table gives the key. */
  function LinkLine(key: string, dm: Data, pages: Value): (r: Result<string>)
    ensures r.Ok? ==> StartsWith(r.value, key + ": ")
    ensures r.Raised? ==> r.error == KeyError || r.error == TypeError
    ensures Get(dm, "pdf").Ok? && pages.Obj? && Lookup(pages.fields, key).Some? ==>
              var link := Index(Get(dm, "pdf").value, "link");
              && (link.Ok? && link.value.Str? ==>
                    r == Ok(key + ": " + link.value.s + "#page=" + ToText(Lookup(pages.fields, key).value)))
              && (link.Raised? ==> r == Raised(link.error))
              && (link.Ok? && !link.value.Str? ==> r == Raised(TypeError))
  {
    var pdf :- Get(dm, "pdf");
    var link :- Index(pdf, "link");
    if !link.Str? then Raised(TypeError)
    else
      var page :- Index(pages, key);
      var r := key + ": " + link.s + "#page=" + ToText(page);
      assert r[..|key + ": "|] == key + ": ";
      Ok(r)
  }

  /** The lines for the link keys from index `i` on: one per key that the
      exam type's page table mentions, in order. */
  function LinkLines(links: seq<string>, i: nat, dm: Data, examType: string): (r: Result<seq<string>>)
    requires i <= |links|
    ensures r.Ok? ==> |r.value| <= |links| - i
    ensures i == |links| ==> r == Ok([])
    decreases |links| - i
  {
    if i == |links| then Ok([])
    else
      var pages :- Pages(dm, examType);
      var present :- Member(links[i], pages);
      var line :- if present then LinkLine(links[i], dm, pages) else Ok("");
      var rest :- LinkLines(links, i + 1, dm, examType);
      Ok((if present then [line] else []) + rest)
  }

  /** The link keys, in order, that a page table mentions. */
  function PresentLinks(links: seq<string>, fields: seq<(string, Value)>): (ks: seq<string>)
    ensures forall k :: k in ks ==> k in links && Lookup(fields, k).Some?
    decreases |links|
  {
    if |links| == 0 then []
    else (if Lookup(fields, links[0]).Some? then [links[0]] else []) + PresentLinks(links[1..], fields)
  }

  /** The PDF link every line cites: the `link` member of the `pdf` object. */
  function PdfLink(dm: Data): Result<Value> {
    var pdf :- Get(dm, "pdf");
    Index(pdf, "link")
  }

  /** When the exam type's page table is a dictionary: with no mentioned
      key there are no lines; otherwise, when the PDF link is a string,
      there is one line per mentioned key, in order, citing the key's page,
      and when it is not, the first mentioned key raises. */
  lemma {:induction false} LinkLinesPresent(links: seq<string>, i: nat, dm: Data, examType: string, pages: Value)
    requires i <= |links| && Pages(dm, examType) == Ok(pages) && pages.Obj?
    ensures var r := LinkLines(links, i, dm, examType);
            var ks := PresentLinks(links[i..], pages.fields);
            var link := PdfLink(dm);
            && (|ks| == 0 ==> r == Ok([]))
            && (link.Ok? && link.value.Str? ==>
                  && r.Ok? && |r.value| == |ks|
                  && forall k :: 0 <= k < |ks| ==>
                       r.value[k] == ks[k] + ": " + link.value.s + "#page=" + ToText(Lookup(pages.fields, ks[k]).value))
            && (|ks| > 0 && link.Raised? ==> r == Raised(link.error))
            && (|ks| > 0 && link.Ok? && !link.value.Str? ==> r == Raised(TypeError))
    decreases |links| - i
  {
    if i < |links| {
      LinkLinesPresent(links, i + 1, dm, examType, pages);
      LinkLinesStep(links, i, dm, examType, pages);
      var key := links[i];
      assert links[i..][0] == key && links[i..][1..] == links[i + 1..];
      var ks := PresentLinks(links[i..], pages.fields);
      var ks' := PresentLinks(links[i + 1..], pages.fields);
      var r := LinkLines(links, i, dm, examType);
      var rest := LinkLines(links, i + 1, dm, examType);
      var link := PdfLink(dm);
      if Lookup(pages.fields, key).None? {
        assert ks == ks';
        assert r == rest;
      } else {
        assert ks == [key] + ks';
        if link.Ok? && link.value.Str? {
          var line := key + ": " + link.value.s + "#page=" + ToText(Lookup(pages.fields, key).value);
          assert r == Ok([line] + rest.value);
          forall k | 0 <= k < |ks|
            ensures r.value[k] == ks[k] + ": " + link.value.s + "#page=" + ToText(Lookup(pages.fields, ks[k]).value)
          {
            if k > 0 {
              assert r.value[k] == rest.value[k - 1] && ks[k] == ks'[k - 1];
            }
          }
        }
      }
    }
  }

  /** One turn of the loop over link keys: a line for a mentioned key,
      nothing for another. */
  lemma LinkLinesStep(links: seq<string>, i: nat, dm: Data, examType: string, pages: Value)
    requires i < |links| && Pages(dm, examType) == Ok(pages) && pages.Obj?
    ensures var rest := LinkLines(links, i + 1, dm, examType);
            var key := links[i];
            var link := PdfLink(dm);
            LinkLines(links, i, dm, examType)
            == if Lookup(pages.fields, key).None? then rest
               else if link.Raised? then Raised(link.error)
               else if !link.value.Str? then Raised(TypeError)
               else if rest.Raised? then rest
               else Ok([key + ": " + link.value.s + "#page=" + ToText(Lookup(pages.fields, key).value)] + rest.value)
  {
    var key := links[i];
    assert Get(dm, "pdf").Ok? && PdfLink(dm) == Index(Get(dm, "pdf").value, "link");
    assert Member(key, pages) == Ok(Lookup(pages.fields, key).Some?);
    var line := LinkLine(key, dm, pages);
    var rest := LinkLines(links, i + 1, dm, examType);
    if rest.Ok? {
      assert [] + rest.value == rest.value;
    }
  }

  /** A newline followed by the memo stored under `メモ` for the exam type
      and key, or the empty string when one of the lookups raises `KeyError`. */
  function Memo(dm: Data, examType: string, key: string): (r: Result<string>)
    ensures MemoKey !in dm ==> r == Ok("")
    ensures MemoKey in dm && dm[MemoKey].Obj? ==>
              var byType := Lookup(dm[MemoKey].fields, examType);
              && (byType.None? ==> r == Ok(""))
              && (byType.Some? && byType.value.Obj? ==>
                    var m := Lookup(byType.value.fields, key);
                    && (m.None? ==> r == Ok(""))
                    && (m.Some? && m.value.Str? ==> r == Ok("\n" + m.value.s)))
    ensures r.Ok? && r.value != "" ==> r.value[0] == '\n'
    ensures r.Raised? ==> r.error == TypeError
  {
    if MemoKey !in dm then Ok("")
    else
      match Index(dm[MemoKey], examType)
      case Raised(e) => if e == KeyError then Ok("") else Raised(e)
      case Ok(byType) =>
        match Index(byType, key)
        case Raised(e) => if e == KeyError then Ok("") else Raised(e)
        case Ok(m) => if m.Str? then Ok("\n" + m.s) else Raised(TypeError)
  }

  // ---------------------------------------------------------------------
  // The loops

  /** The events one format entry contributes for one exam type; none
      when the details do not have the entry's key. */
  function EntryEvents(f: Format, details: seq<(string, Value)>, dm: Data, examType: string,
                       today: DateTime): (r: Result<seq<Event>>)
    requires InRange(today)
    ensures Lookup(details, f.key).None? ==> r == Ok([])
  {
    match Lookup(details, f.key)
    case None => Ok([])
    case Some(dateVal) =>
      var title :- FormatString(f.title, dm, today);
      var desc :- FormatString(f.desc, dm, today);
      var urls :- LinkLines(f.links, 0, dm, examType);
      var memo :- Memo(dm, examType, f.key);
      DateEvents(dateVal, title, Join("\n", urls), memo, desc, today)
  }

  /** The events of one exam type, format entry by format entry. */
  function ExamEvents(formats: seq<Format>, details: seq<(string, Value)>, dm: Data, examType: string,
                      today: DateTime): (r: Result<seq<Event>>)
    requires InRange(today)
    ensures (forall k :: 0 <= k < |formats| ==> Lookup(details, formats[k].key).None?) ==> r == Ok([])
    ensures r.Ok? ==> forall k :: 0 <= k < |formats| ==> EntryEvents(formats[k], details, dm, examType, today).Ok?
    decreases |formats|
  {
    if |formats| == 0 then Ok([])
    else
      Cat(EntryEvents(formats[0], details, dm, examType, today),
          ExamEvents(formats[1..], details, dm, examType, today))
  }

  /** The data map with the exam's details laid over it, and then the key
      `入試形式` bound to the exam type. */
  function Merge(dm: Data, examType: string, details: Value): (r: Result<Data>)
    ensures r.Ok? <==> details.Obj?
    ensures r.Ok? ==> r.value.Keys == dm.Keys + ToMap(details.fields).Keys + {ExamTypeKey}
    ensures r.Ok? ==> r.value[ExamTypeKey] == Str(examType)
    ensures r.Raised? ==> r.error == TypeError
  {
    if details.Obj? then Ok((dm + ToMap(details.fields))[ExamTypeKey := Str(examType)])
    else Raised(TypeError)
  }

  /** The exam types of a university, in document order. */
  function Items(fields: seq<(string, Value)>): (r: seq<(string, Value)>)
    ensures |r| == |Keys(fields)|
    ensures forall i :: 0 <= i < |r| ==> r[i].0 == Keys(fields)[i] && Lookup(fields, r[i].0) == Some(r[i].1)
  {
    var ks := Keys(fields);
    forall i | 0 <= i < |ks| ensures Lookup(fields, ks[i]).Some? {
      assert ks[i] in ks;
    }
    seq(|ks|, i requires 0 <= i < |ks| => (ks[i], Lookup(fields, ks[i]).value))
  }

  /** The loop over exam types, threading the updated dictionary. */
  function ExamLoop(types: seq<(string, Value)>, dm: Data, formats: seq<Format>, today: DateTime)
    : (r: Result<seq<Event>>)
    requires InRange(today)
    ensures r.Ok? ==> Details(types)
    ensures |types| > 0 && !types[0].1.Obj? ==> r == Raised(TypeError)
    decreases |types|
  {
    if |types| == 0 then Ok([])
    else
      var (examType, details) := types[0];
      var dm' :- Merge(dm, examType, details);
      var evs :- ExamEvents(formats, details.fields, dm', examType, today);
      var rest :- ExamLoop(types[1..], dm', formats, today);
      Ok(evs + rest)
  }

  /** One university's calendar. */
  function UniversityCalendar(u: Value, formats: seq<Format>, today: DateTime): (r: Result<Calendar>)
    requires InRange(today)
    ensures r.Ok? ==> u.Obj? && NameKey in ToMap(u.fields) && "url" in ToMap(u.fields)
    ensures r.Ok? ==> var name := ToText(ToMap(u.fields)[NameKey]);
                      && r.value.fileName == name + ".ics"
                      && r.value.name == "2025 " + name + " " + CalendarWord
                      && r.value.description == name + CalendarWord
                      && r.value.relCalId == ToMap(u.fields)["url"]
                      && r.value.prodId == ProductId
  {
    if u.Arr? then Raised(TypeError)
    else if !u.Obj? then Raised(AttributeError)
    else
      var dm := ToMap(u.fields);
      var nameValue :- Get(dm, NameKey);
      var name := ToText(nameValue);
      var url :- Get(dm, "url");
      var types := match Lookup(u.fields, ExamTypeKey) case Some(t) => t case None => Obj([]);
      if !types.Obj? then Raised(AttributeError)
      else
        var events :- ExamLoop(Items(types.fields), dm, formats, today);
        Ok(Calendar(name + ".ics", "2025 " + name + " " + CalendarWord, name + CalendarWord, url,
                    ProductId, events))
  }

  /** What building the calendar of each university gives, in order. */
  function Calendars(universities: seq<Value>, formats: seq<Format>, today: DateTime): (rs: seq<Result<Calendar>>)
    requires InRange(today)
    ensures |rs| == |universities|
  {
    seq(|universities|, i requires 0 <= i < |universities| => UniversityCalendar(universities[i], formats, today))
  }

  /** The loop over the outcomes from index `i` on: each calendar is written
      in turn, and the first exception stops the loop. */
  function Written(rs: seq<Result<Calendar>>, i: nat): (r: Run)
    requires i <= |rs|
    ensures |r.written| <= |rs| - i
    ensures forall k :: 0 <= k < |r.written| ==> rs[i + k] == Ok(r.written[k])
    ensures r.failed.None? <==> |r.written| == |rs| - i
    ensures r.failed.Some? ==> rs[i + |r.written|] == Raised(r.failed.value)
    decreases |rs| - i
  {
    if i == |rs| then Run([], None)
    else
      match rs[i]
      case Raised(e) => Run([], Some(e))
      case Ok(cal) =>
        var rest := Written(rs, i + 1);
        var r := Run([cal] + rest.written, rest.failed);
        assert forall k :: 0 < k < |r.written| ==> r.written[k] == rest.written[k - 1];
        r
  }

  /** `generate_ics`: one calendar per university, in order, until the
      first exception. */
  function GenerateIcs(universities: seq<Value>, formats: seq<Format>, today: DateTime): (r: Run)
    requires InRange(today)
    ensures |r.written| <= |universities|
    ensures forall i :: 0 <= i < |r.written| ==>
              UniversityCalendar(universities[i], formats, today) == Ok(r.written[i])
    ensures r.failed.None? <==> |r.written| == |universities|
    ensures r.failed.Some? ==>
              UniversityCalendar(universities[|r.written|], formats, today) == Raised(r.failed.value)
  {
    var rs := Calendars(universities, formats, today);
    var r := Written(rs, 0);
    assert forall i :: 0 <= i < |r.written| ==> rs[0 + i] == rs[i];
    r
  }

  // ---------------------------------------------------------------------
  // Properties

  /** The description read back line by line: the lines of the rendered
      text, then those of the link text and of the memo when they are not
      empty.  A memo from `Memo` starts with a newline, so its text follows
      an empty line. */
  lemma DescribeLines(desc: string, urlText: string, memo: string)
    ensures SplitOn(Describe(desc, urlText, memo), '\n')
            == SplitOn(desc, '\n')
               + (if urlText != "" then SplitOn(urlText, '\n') else [])
               + (if memo != "" then SplitOn(memo, '\n') else [])
    ensures |memo| > 0 && memo[0] == '\n' ==> SplitOn(memo, '\n') == [""] + SplitOn(memo[1..], '\n')
  {
    if |memo| > 0 && memo[0] == '\n' {
      assert memo == "" + "\n" + memo[1..];
      SplitOnConcat("", memo[1..], '\n');
    }
    var withLinks := if urlText != "" then desc + "\n" + urlText else desc;
    if urlText != "" {
      SplitOnConcat(desc, urlText, '\n');
    }
    if memo != "" {
      SplitOnConcat(withLinks, memo, '\n');
    }
  }

  /** When every outcome is an event, they are collected one for one. */
  lemma {:induction false} CollectedAll(gs: seq<Result<Option<Event>>>, i: nat, j: nat)
    requires i <= j < |gs|
    requires forall k :: i <= k < |gs| ==> gs[k].Ok? && gs[k].value.Some?
    ensures Collected(gs, i).Ok? && |Collected(gs, i).value| == |gs| - i
    ensures gs[j] == Ok(Some(Collected(gs, i).value[j - i]))
    decreases |gs| - i
  {
    var rest := Collected(gs, i + 1);
    if i + 1 < |gs| {
      CollectedAll(gs, i + 1, if j == i then i + 1 else j);
    }
    var r := Collected(gs, i);
    assert r.value == [gs[i].value.value] + rest.value;
    if j > i {
      assert r.value[j - i] == rest.value[j - (i + 1)];
    }
  }

  /** A list of `#`-prefixed dates whose times all parse gives one event per
      element, in order: event `j` has the title numbered `j + 1` (numbered
      only when the list has more than one element), the span parsed from
      element `j`, and the shared description. */
  lemma ListEventSpans(vs: seq<Value>, title: string, urlText: string, memo: string, desc: string,
                       today: DateTime, j: nat)
    requires InRange(today)
    requires forall k :: 0 <= k < |vs| ==> vs[k].Str? && IsToken(vs[k].s) && ParseTime(vs[k].s, today).Ok?
    requires j < |vs|
    ensures var r := ListEvents(vs, title, urlText, memo, desc, today);
            && r.Ok? && |r.value| == |vs|
            && r.value[j].title == IndexedTitle(title, j, |vs|)
            && r.value[j].description == Describe(desc, urlText, memo)
            && ParseTime(vs[j].s, today) == Ok(Some(Span(r.value[j].start, r.value[j].end)))
  {
    var gs := Generated(vs, title, urlText, memo, desc, today);
    GeneratedEvents(vs, title, urlText, memo, desc, today);
    CollectedAll(gs, 0, j);
    GeneratedAt(vs, title, urlText, memo, desc, today, j, Collected(gs, 0).value[j]);
  }

  /** A list date value whose elements are all `#`-prefixed dates that parse
      gives one event per element: event `j` carries the title numbered
      `j + 1` (when there is more than one) and the span of element `j`. */
  lemma DateEventsOfList(v: Value, title: string, urlText: string, memo: string, desc: string,
                         today: DateTime, j: nat)
    requires InRange(today) && v.Arr?
    requires forall k :: 0 <= k < |v.items| ==> v.items[k].Str? && IsToken(v.items[k].s) && ParseTime(v.items[k].s, today).Ok?
    requires j < |v.items|
    ensures var r := DateEvents(v, title, urlText, memo, desc, today);
            && r.Ok? && |r.value| == |v.items|
            && r.value[j].title == IndexedTitle(title, j, |v.items|)
            && r.value[j].description == Describe(desc, urlText, memo)
            && ParseTime(v.items[j].s, today) == Ok(Some(Span(r.value[j].start, r.value[j].end)))
  {
    ListEventSpans(v.items, title, urlText, memo, desc, today, j);
  }

  lemma GeneratedEvents(vs: seq<Value>, title: string, urlText: string, memo: string, desc: string,
                        today: DateTime)
    requires InRange(today)
    requires forall k :: 0 <= k < |vs| ==> vs[k].Str? && IsToken(vs[k].s) && ParseTime(vs[k].s, today).Ok?
    ensures var gs := Generated(vs, title, urlText, memo, desc, today);
            forall k :: 0 <= k < |gs| ==> gs[k].Ok? && gs[k].value.Some?
  {
  }

  lemma GeneratedAt(vs: seq<Value>, title: string, urlText: string, memo: string, desc: string,
                    today: DateTime, j: nat, e: Event)
    requires InRange(today) && j < |vs|
    requires Generated(vs, title, urlText, memo, desc, today)[j] == Ok(Some(e))
    ensures vs[j].Str? && ParseTime(vs[j].s, today) == Ok(Some(Span(e.start, e.end)))
    ensures e.title == IndexedTitle(title, j, |vs|) && e.description == Describe(desc, urlText, memo)
  {
  }

  /** The format entries whose key the details have, in order. */
  function Present(formats: seq<Format>, details: seq<(string, Value)>): (r: seq<Format>)
    ensures forall f :: f in r ==> f in formats && Lookup(details, f.key).Some?
    decreases |formats|
  {
    if |formats| == 0 then []
    else (if Lookup(details, formats[0].key).Some? then [formats[0]] else []) + Present(formats[1..], details)
  }

  /** Entries whose key is absent from the details are skipped: the exam
      type's events are those of the entries it has, in format order. */
  lemma {:induction false} AbsentKeysSkipped(formats: seq<Format>, details: seq<(string, Value)>, dm: Data,
                                             examType: string, today: DateTime)
    requires InRange(today)
    ensures ExamEvents(formats, details, dm, examType, today)
            == ExamEvents(Present(formats, details), details, dm, examType, today)
    decreases |formats|
  {
    if |formats| > 0 {
      AbsentKeysSkipped(formats[1..], details, dm, examType, today);
      var rest := ExamEvents(formats[1..], details, dm, examType, today);
      var first := EntryEvents(formats[0], details, dm, examType, today);
      assert ExamEvents(formats, details, dm, examType, today) == Cat(first, rest);
      if Lookup(details, formats[0].key).Some? {
        var p := Present(formats, details);
        assert p[0] == formats[0] && p[1..] == Present(formats[1..], details);
        assert ExamEvents(p, details, dm, examType, today) == Cat(first, ExamEvents(p[1..], details, dm, examType, today));
      } else {
        assert first == Ok([]);
        assert Present(formats, details) == Present(formats[1..], details);
        assert rest.Ok? ==> [] + rest.value == rest.value;
      }
    }
  }

  /** Every exam type's details are a dictionary. */
  predicate Details(types: seq<(string, Value)>) {
    forall i :: 0 <= i < |types| ==> types[i].1.Obj?
  }

  /** The dictionary after the updates for the given exam types. */
  function Threaded(dm: Data, types: seq<(string, Value)>): Data
    requires Details(types)
    decreases |types|
  {
    if |types| == 0 then dm
    else Threaded(Merge(dm, types[0].0, types[0].1).value, types[1..])
  }

  /** Reference: a key's value is the one bound by the last exam type
      whose details have it, or else the university's own. */
  function LastBinding(dm: Data, types: seq<(string, Value)>, k: string): Option<Value>
    requires Details(types)
    decreases |types|
  {
    if |types| == 0 then (if k in dm then Some(dm[k]) else None)
    else
      var n := |types| - 1;
      match Lookup(types[n].1.fields, k)
      case Some(v) => Some(v)
      case None => LastBinding(dm, types[..n], k)
  }

  lemma {:induction false} ThreadedSnoc(dm: Data, types: seq<(string, Value)>, t: (string, Value))
    requires Details(types)
    requires t.1.Obj?
    ensures Details(types + [t])
    ensures Threaded(dm, types + [t]) == Merge(Threaded(dm, types), t.0, t.1).value
    decreases |types|
  {
    var all := types + [t];
    assert Details(all);
    if |types| > 0 {
      var dm' := Merge(dm, types[0].0, types[0].1).value;
      assert all[1..] == types[1..] + [t];
      ThreadedSnoc(dm', types[1..], t);
    } else {
      assert all[1..] == [];
    }
  }

  /** The updates accumulate: every key other than the exam-type key has,
      after any number of exam types, the value its last binding gave it;
      fields of earlier exam types persist unless a later one rebinds them. */
  lemma {:induction false} ThreadedBinding(dm: Data, types: seq<(string, Value)>, k: string)
    requires Details(types)
    requires k != ExamTypeKey
    ensures k in Threaded(dm, types) <==> LastBinding(dm, types, k).Some?
    ensures k in Threaded(dm, types) ==> Threaded(dm, types)[k] == LastBinding(dm, types, k).value
    decreases |types|
  {
    if |types| > 0 {
      var n := |types| - 1;
      var front := types[..n];
      assert types == front + [types[n]];
      ThreadedSnoc(dm, front, types[n]);
      ThreadedBinding(dm, front, k);
      ToMapLookup(types[n].1.fields, k);
    }
  }

  /** Reference for the loop over exam types: exam type `i` is expanded
      against the dictionary as updated by exam types `0..i`. */
  function ExamLoopRef(types: seq<(string, Value)>, dm: Data, formats: seq<Format>, today: DateTime, i: nat)
    : (r: Result<seq<Event>>)
    requires InRange(today) && i <= |types|
    requires Details(types)
    decreases |types| - i
  {
    if i == |types| then Ok([])
    else
      assert forall k :: 0 <= k < i + 1 ==> types[..i + 1][k] == types[k];
      Cat(ExamEvents(formats, types[i].1.fields, Threaded(dm, types[..i + 1]), types[i].0, today),
          ExamLoopRef(types, dm, formats, today, i + 1))
  }

  /** The loop threads one dictionary through the exam types: each exam
      type sees the university's fields updated by it and every exam type
      before it. */
  lemma {:induction false} ExamLoopThreaded(types: seq<(string, Value)>, dm: Data, formats: seq<Format>,
                                            today: DateTime, i: nat)
    requires InRange(today) && i <= |types|
    requires Details(types)
    ensures Details(types[..i])
    ensures ExamLoop(types[i..], Threaded(dm, types[..i]), formats, today) == ExamLoopRef(types, dm, formats, today, i)
    decreases |types| - i
  {
    assert forall k :: 0 <= k < i ==> types[..i][k] == types[k];
    if i < |types| {
      ExamLoopThreaded(types, dm, formats, today, i + 1);
      var after := ExamLoopRefStep(types, dm, formats, today, i);
      assert types[i..][0] == types[i] && types[i..][1..] == types[i + 1..];
      ExamLoopStep(types[i..], Threaded(dm, types[..i]), formats, today);
    }
  }

  /** One step of the reference, with the dictionary the exam type sees
      written as one more update of the dictionary before it. */
  lemma ExamLoopRefStep(types: seq<(string, Value)>, dm: Data, formats: seq<Format>, today: DateTime, i: nat)
    returns (after: Data)
    requires InRange(today) && i < |types|
    requires Details(types)
    ensures Details(types[..i])
    ensures Details(types[..i + 1])
    ensures after == Threaded(dm, types[..i + 1]) == Merge(Threaded(dm, types[..i]), types[i].0, types[i].1).value
    ensures ExamLoopRef(types, dm, formats, today, i)
            == Cat(ExamEvents(formats, types[i].1.fields, after, types[i].0, today),
                   ExamLoopRef(types, dm, formats, today, i + 1))
  {
    assert forall k :: 0 <= k < i ==> types[..i][k] == types[k];
    assert forall k :: 0 <= k < i + 1 ==> types[..i + 1][k] == types[k];
    assert types[..i + 1] == types[..i] + [types[i]];
    ThreadedSnoc(dm, types[..i], types[i]);
    after := Threaded(dm, types[..i + 1]);
  }

  /** One turn of the loop over exam types. */
  lemma ExamLoopStep(ts: seq<(string, Value)>, dm: Data, formats: seq<Format>, today: DateTime)
    requires InRange(today) && |ts| > 0 && ts[0].1.Obj?
    ensures var dm' := Merge(dm, ts[0].0, ts[0].1).value;
            ExamLoop(ts, dm, formats, today)
            == Cat(ExamEvents(formats, ts[0].1.fields, dm', ts[0].0, today), ExamLoop(ts[1..], dm', formats, today))
  {
  }

  /** After an exam type, the exam-type key holds that exam type's name. */
  lemma ThreadedExamType(dm: Data, types: seq<(string, Value)>)
    requires Details(types)
    requires |types| > 0
    ensures ExamTypeKey in Threaded(dm, types) && Threaded(dm, types)[ExamTypeKey] == Str(types[|types| - 1].0)
  {
    var n := |types| - 1;
    assert types == types[..n] + [types[n]];
    ThreadedSnoc(dm, types[..n], types[n]);
  }
}

=== FILE: json.dfy ===
/** Values as `json.load` produces them, and the Python operations the
    program applies to them: printing, lookup and membership of a key,
    iteration and updating one dictionary with another.

    An object keeps its members in document order.  When a key is repeated,
    `json.load` keeps the last value at the place of the first occurrence;
    `Keys` and `Lookup` give exactly that view, and `ToMap` is the dictionary
    the program works on once it has copied or merged an object.
    Numbers are integers only (see the README for floats).
 */
module Json {
  import opened Outcomes
  import opened Text

  datatype Value =
    | Str(s: string)
    | Int(i: int)
    | Bool(b: bool)
    | Null
    | Arr(items: seq<Value>)
    | Obj(fields: seq<(string, Value)>)

  /** The value bound to `k`, the last binding winning. */
  function Lookup(fields: seq<(string, Value)>, k: string): (r: Option<Value>)
    ensures r.Some? <==> exists i :: 0 <= i < |fields| && fields[i].0 == k
    ensures r.Some? ==> exists i :: 0 <= i < |fields| && fields[i] == (k, r.value)
                                    && forall j :: i < j < |fields| ==> fields[j].0 != k
    decreases |fields|
  {
    if |fields| == 0 then None
    else
      var n := |fields| - 1;
      if fields[n].0 == k then Some(fields[n].1)
      else
        var r := Lookup(fields[..n], k);
        assert forall i :: 0 <= i < n ==> fields[..n][i] == fields[i];
        assert r.Some? ==> exists i :: 0 <= i < |fields| && fields[i] == (k, r.value)
                                       && forall j :: i < j < |fields| ==> fields[j].0 != k by {
          if r.Some? {
            var i :| 0 <= i < n && fields[..n][i] == (k, r.value)
                     && forall j :: i < j < n ==> fields[..n][j].0 != k;
            assert fields[i] == (k, r.value);
          }
        }
        r
  }

  /** The distinct keys in order of first appearance: the iteration order
      of the loaded dictionary. */
  function Keys(fields: seq<(string, Value)>): (ks: seq<string>)
    ensures forall i, j :: 0 <= i < j < |ks| ==> ks[i] != ks[j]
    ensures forall k :: k in ks <==> exists i :: 0 <= i < |fields| && fields[i].0 == k
  {
    var names := seq(|fields|, i requires 0 <= i < |fields| => fields[i].0);
    forall k ensures k in names <==> exists i :: 0 <= i < |fields| && fields[i].0 == k {
      if k in names {
        var i :| 0 <= i < |names| && names[i] == k;
        assert fields[i].0 == k;
      }
      if exists i :: 0 <= i < |fields| && fields[i].0 == k {
        var i :| 0 <= i < |fields| && fields[i].0 == k;
        assert names[i] == k;
      }
    }
    Dedup(names)
  }

  /** The dictionary of an object's pairs, later pairs overriding. */
  function ToMap(fields: seq<(string, Value)>): (m: map<string, Value>)
    decreases |fields|
  {
    if |fields| == 0 then map[]
    else
      var n := |fields| - 1;
      ToMap(fields[..n])[fields[n].0 := fields[n].1]
  }

  /** The dictionary and the list of members agree: same keys, and each
      key maps to its last binding. */
  lemma {:induction false} ToMapLookup(fields: seq<(string, Value)>, k: string)
    ensures k in ToMap(fields) <==> Lookup(fields, k).Some?
    ensures k in ToMap(fields) ==> ToMap(fields)[k] == Lookup(fields, k).value
    decreases |fields|
  {
    if |fields| > 0 {
      ToMapLookup(fields[..|fields| - 1], k);
    }
  }

  /** The key set of the dictionary is the set of keys iterated over. */
  lemma ToMapKeys(fields: seq<(string, Value)>)
    ensures forall k :: k in ToMap(fields) <==> k in Keys(fields)
  {
    forall k ensures k in ToMap(fields) <==> k in Keys(fields) {
      ToMapLookup(fields, k);
    }
  }

  /** `True`/`False`, as Python spells them. */
  function BoolText(b: bool): string {
    if b then "True" else "False"
  }

  /** The printed text of a value. Strings print bare; inside a list or
      dictionary every element prints in its quoted form (see `Repr`). */
  function ToText(v: Value): (r: string)
    ensures v.Str? ==> r == v.s
    ensures v.Int? ==> ParseInt(r) == Some(v.i)
    ensures v.Arr? ==> |r| >= 2 && r[0] == '[' && r[|r| - 1] == ']'
    ensures v.Obj? ==> |r| >= 2 && r[0] == '{' && r[|r| - 1] == '}'
  {
    match v
    case Str(s) => s
    case Int(i) => IntToStringRoundTrip(i); IntToString(i)
    case _ => Repr(v)
  }

  /** The quoted form of a value, with strings always in single quotes and
      no escaping. */
  function Repr(v: Value): (r: string)
    ensures |r| > 0
    ensures v.Arr? ==> |r| >= 2 && r[0] == '[' && r[|r| - 1] == ']'
    ensures v.Obj? ==> |r| >= 2 && r[0] == '{' && r[|r| - 1] == '}'
    decreases v, 1
  {
    match v
    case Str(s) => "'" + s + "'"
    case Int(i) => IntToString(i)
    case Bool(b) => BoolText(b)
    case Null => "None"
    case Arr(items) =>
      "[" + Join(", ", seq(|items|, i requires 0 <= i < |items| => Repr(items[i]))) + "]"
    case Obj(fields) =>
      "{" + Join(", ", seq(|fields|, i requires 0 <= i < |fields| => MemberRepr(v, i))) + "}"
  }

  function MemberRepr(v: Value, i: nat): string
    requires v.Obj? && i < |v.fields|
    decreases v, 0
  {
    "'" + v.fields[i].0 + "': " + Repr(v.fields[i].1)
  }

  /** `v[k]` for a string key: a dictionary member or `KeyError`; any other
      value cannot be indexed by a string. */
  function Index(v: Value, k: string): (r: Result<Value>)
    ensures r.Ok? <==> v.Obj? && Lookup(v.fields, k).Some?
    ensures r.Ok? ==> r.value == Lookup(v.fields, k).value
    ensures r.Raised? ==> r.error == (if v.Obj? then KeyError else TypeError)
  {
    if !v.Obj? then Raised(TypeError)
    else
      match Lookup(v.fields, k)
      case Some(x) => Ok(x)
      case None => Raised(KeyError)
  }

  /** `for x in v`: the items of a list, the one-character strings of a
      string, the keys of a dictionary; anything else is not iterable. */
  function Iterate(v: Value): (r: Result<seq<Value>>)
    ensures r.Ok? <==> v.Str? || v.Arr? || v.Obj?
    ensures v.Str? ==> r.Ok? && |r.value| == |v.s| && forall i :: 0 <= i < |v.s| ==> r.value[i] == Str([v.s[i]])
    ensures v.Arr? ==> r == Ok(v.items)
    ensures v.Obj? ==> r.Ok? && |r.value| == |Keys(v.fields)|
                       && forall i :: 0 <= i < |r.value| ==> r.value[i] == Str(Keys(v.fields)[i])
    ensures r.Raised? ==> r.error == TypeError
  {
    match v
    case Str(s) => Ok(seq(|s|, i requires 0 <= i < |s| => Str([s[i]])))
    case Arr(items) => Ok(items)
    case Obj(fields) =>
      var ks := Keys(fields);
      Ok(seq(|ks|, i requires 0 <= i < |ks| => Str(ks[i])))
    case _ => Raised(TypeError)
  }

  /** `x in v` for a string `x`: substring test on a string, element
      equality on a list, key membership on a dictionary. */
  function Member(x: string, v: Value): (r: Result<bool>)
    ensures r.Ok? <==> v.Str? || v.Arr? || v.Obj?
    ensures v.Str? ==> r == Ok(Contains(v.s, x))
    ensures v.Arr? ==> r == Ok(Str(x) in v.items)
    ensures v.Obj? ==> r == Ok(Lookup(v.fields, x).Some?)
    ensures r.Raised? ==> r.error == TypeError
  {
    match v
    case Str(s) => Ok(Contains(s, x))
    case Arr(items) => Ok(Str(x) in items)
    case Obj(fields) => Ok(Lookup(fields, x).Some?)
    case _ => Raised(TypeError)
  }
}

=== FILE: outcomes.dfy ===
/** Failure-carrying datatypes shared by the whole model.

    The modelled program is written in Python, where an invalid calendar date,
    a missing dictionary key or a value of the wrong shape raises an exception
    that ends the run.  Such an outcome is `Raised(kind)` here; a successful
    evaluation is `Ok(value)`.
 */
module Outcomes {

  datatype Option<+T> = None | Some(value: T)

  /** The Python exception classes the modelled code can raise. */
  datatype Error =
    | ValueError      // datetime(...) with an out-of-range field, bad tuple unpacking
    | OverflowError   // datetime arithmetic past year 9999
    | KeyError        // d[k] with k absent
    | IndexError      // s[-1] on an empty sequence
    | TypeError       // subscripting or concatenating a value of the wrong type
    | AttributeError  // calling .split / .items / .copy on a value without it

  datatype Result<+T> = Ok(value: T) | Raised(error: Error) {

    predicate IsFailure() {
      Raised?
    }

    function PropagateFailure<U>(): Result<U>
      requires Raised?
    {
      Raised(error)
    }

    function Extract(): T
      requires Ok?
    {
      value
    }
  }

  /** Evaluate `a`, then `b`, and concatenate: the first exception wins,
      exactly as when two string- or list-producing Python expressions are
      added. */
  function Cat<T>(a: Result<seq<T>>, b: Result<seq<T>>): (r: Result<seq<T>>)
    ensures r.Ok? <==> a.Ok? && b.Ok?
    ensures r.Ok? ==> r.value == a.value + b.value
    ensures a.Raised? ==> r == a
    ensures a.Ok? && b.Raised? ==> r == b
  {
    match a
    case Raised(e) => Raised(e)
    case Ok(x) =>
      match b
      case Raised(e) => Raised(e)
      case Ok(y) => Ok(x + y)
  }
}

=== FILE: template.dfy ===
/** The template engine `format_string` (main.py:63-102).

    One left-to-right pass replaces every `{body}` whose body is non-empty
    and free of `}`; substituted text is never scanned again.  A body is
    classified once (`Classify`) as a duration `TID[key]`, a loop
    `FOR[key][format]` (a key ending in `#` asks to skip items marked
    `#ignore`) or a plain dictionary lookup.  A duration or loop whose key
    is missing from the data falls back to the plain lookup of the whole
    body.

    A loop renders one line per item: `<d>` slots are filled with the
    item's field `d` (empty when the item is shorter), then every
    `TID[hhmm-HHMM]` left in the line becomes its minute count, then the
    literal `(TID[]m)` becomes the "external use" note, then a newline
    is appended.
 */
module Template {
  import opened Outcomes
  import opened Text
  import opened Dates
  import opened Duration
  import opened Json

  /** The dictionary a template is rendered against. */
  type Data = map<string, Value>

  datatype Placeholder =
    | Elapsed(timeKey: string)
    | Each(contentKey: string, skipIgnored: bool, format: string)
    | Plain

  /** `TID[...]`; the length bound follows from the other two conditions. */
  predicate ElapsedForm(body: string) {
    |body| >= 5 && StartsWith(body, "TID[") && EndsWith(body, "]")
  }

  predicate EachForm(body: string) {
    StartsWith(body, "FOR[") && EndsWith(body, "]")
  }

  /** What `replace_match` decides from the body alone.  A `FOR[...]` body
      that does not split into exactly two parts at `][` raises
      `ValueError`; an empty content key raises `IndexError`. */
  function Classify(body: string): (r: Result<Placeholder>)
    ensures ElapsedForm(body) ==> r == Ok(Elapsed(body[4..|body| - 1]))
    ensures r == Ok(Plain) <==> !ElapsedForm(body) && !EachForm(body)
    ensures r.Ok? && r.value.Each? ==>
              !ElapsedForm(body) && EachForm(body) && !EndsWith(r.value.format, "]")
    ensures r.Raised? ==> !ElapsedForm(body) && EachForm(body)
                          && (r.error == ValueError || r.error == IndexError)
  {
    if ElapsedForm(body) then Ok(Elapsed(body[4..|body| - 1]))
    else if EachForm(body) then
      var (key, fmt) :- SplitPair(body[4..], "][");
      var format := RStrip(fmt, ']');
      if |key| == 0 then Raised(IndexError)
      else if key[|key| - 1] == '#' then Ok(Each(key[..|key| - 1], true, format))
      else Ok(Each(key, false, format))
    else Ok(Plain)
  }

  /** The text of a plain placeholder: the printed value bound to its key,
      or the empty string when the key is absent. */
  function PlainText(body: string, data: Data): (r: string)
    ensures body !in data ==> r == ""
    ensures body in data && data[body].Str? ==> r == data[body].s
  {
    if body in data then ToText(data[body]) else ""
  }

  /** The minutes of a duration value: only a string can be split into
      clocks, so any other value raises `AttributeError`. */
  function Minutes(v: Value, today: DateTime): (r: Result<string>)
    requires InRange(today)
    ensures r.Ok? ==> v.Str? && ParseInt(r.value).Some?
    ensures !v.Str? ==> r == Raised(AttributeError)
  {
    if v.Str? then TimeDelta(v.s, today) else Raised(AttributeError)
  }

  /** `replace_match` for one body. */
  function Subst(body: string, data: Data, today: DateTime): (r: Result<string>)
    requires InRange(today)
    ensures Classify(body) == Ok(Plain) ==> r == Ok(PlainText(body, data))
    ensures Classify(body).Raised? ==> r == Raised(Classify(body).error)
    ensures Classify(body).Ok? && Classify(body).value.Elapsed? && Classify(body).value.timeKey !in data
            ==> r == Ok(PlainText(body, data))
    ensures Classify(body).Ok? && Classify(body).value.Each? && Classify(body).value.contentKey !in data
            ==> r == Ok(PlainText(body, data))
    ensures Classify(body).Ok? && Classify(body).value.Elapsed? && Classify(body).value.timeKey in data
            ==> r == Minutes(data[Classify(body).value.timeKey], today)
    ensures Classify(body).Ok? && Classify(body).value.Each? && Classify(body).value.contentKey in data
            ==> var p := Classify(body).value;
                r == Expand(data[p.contentKey], p.skipIgnored, p.format, today)
  {
    var p :- Classify(body);
    match p
    case Elapsed(key) =>
      if key in data then Minutes(data[key], today) else Ok(PlainText(body, data))
    case Each(key, skip, format) =>
      if key in data then Expand(data[key], skip, format, today) else Ok(PlainText(body, data))
    case Plain => Ok(PlainText(body, data))
  }

  // ---------------------------------------------------------------------
  // The loop placeholder

  /** `d[-1]`: the last character of a string, the last element of a list;
      a dictionary has no key `-1` and other values cannot be indexed. */
  function Last(d: Value): (r: Result<Value>)
    ensures r.Ok? <==> (d.Str? && |d.s| > 0) || (d.Arr? && |d.items| > 0)
    ensures r.Ok? && d.Str? ==> r.value == Str([d.s[|d.s| - 1]])
    ensures r.Ok? && d.Arr? ==> r.value == d.items[|d.items| - 1]
    ensures r.Raised? ==> r.error == (if d.Obj? then KeyError
                                      else if d.Str? || d.Arr? then IndexError
                                      else TypeError)
  {
    match d
    case Str(s) => if |s| == 0 then Raised(IndexError) else Ok(Str([s[|s| - 1]]))
    case Arr(xs) => if |xs| == 0 then Raised(IndexError) else Ok(xs[|xs| - 1])
    case Obj(_) => Raised(KeyError)
    case _ => Raised(TypeError)
  }

  /** The printed field at every index of a string or list item. */
  function FieldTexts(d: Value): (fs: seq<string>)
    requires d.Str? || d.Arr?
    ensures d.Str? ==> |fs| == |d.s| && forall i :: 0 <= i < |fs| ==> fs[i] == [d.s[i]]
    ensures d.Arr? ==> |fs| == |d.items| && forall i :: 0 <= i < |fs| ==> fs[i] == ToText(d.items[i])
  {
    if d.Str? then seq(|d.s|, i requires 0 <= i < |d.s| => [d.s[i]])
    else seq(|d.items|, i requires 0 <= i < |d.items| => ToText(d.items[i]))
  }

  /** An item is dropped when the loop key ended in `#` and its last field
      mentions `#ignore`. */
  predicate Ignored(d: Value) {
    Last(d).Ok? && Member("#ignore", Last(d).value) == Ok(true)
  }

  /** One loop iteration: the `#ignore` test (evaluated even when no skip
      was asked for), then the line for the item. */
  function ExpandItem(d: Value, skip: bool, format: string, today: DateTime): (r: Result<string>)
    requires InRange(today)
    ensures r.Ok? ==> Last(d).Ok? && Member("#ignore", Last(d).value).Ok?
    ensures skip && Ignored(d) ==> r == Ok("")
    ensures !(skip && Ignored(d)) && Last(d).Ok? && Member("#ignore", Last(d).value).Ok? ==>
              r == Line(format, FieldTexts(d), today)
  {
    var last :- Last(d);
    var ignored :- Member("#ignore", last);
    if ignored && skip then Ok("") else Line(format, FieldTexts(d), today)
  }

  function ExpandItems(items: seq<Value>, skip: bool, format: string, today: DateTime): (r: Result<string>)
    requires InRange(today)
    ensures r.Ok? ==> forall k :: 0 <= k < |items| ==> Shaped(items[k])
    ensures r.Ok? && r.value != "" ==> r.value[|r.value| - 1] == '\n'
    decreases |items|
  {
    if |items| == 0 then Ok("")
    else Cat(ExpandItem(items[0], skip, format, today), ExpandItems(items[1..], skip, format, today))
  }

  /** The whole `FOR` expansion over the value bound to the content key. */
  function Expand(v: Value, skip: bool, format: string, today: DateTime): (r: Result<string>)
    requires InRange(today)
    ensures !(v.Str? || v.Arr? || v.Obj?) ==> r == Raised(TypeError)
    ensures v.Arr? ==> r == ExpandItems(v.items, skip, format, today)
  {
    var items :- Iterate(v);
    ExpandItems(items, skip, format, today)
  }

  // ---------------------------------------------------------------------
  // One line of a loop

  /** The note `(TID[]m)` turns into. */
  const ExternalUse: string := "(\U{5916}\U{90E8}\U{5229}\U{7528})"

  function Line(format: string, fs: seq<string>, today: DateTime): (r: Result<string>)
    requires InRange(today)
    ensures r.Ok? ==> |r.value| > 0 && r.value[|r.value| - 1] == '\n'
  {
    var digits := Dedup(SlotDigits(format));
    assert forall i :: 0 <= i < |digits| ==> digits[i] in SlotDigits(format);
    var filled := FillAll(format, digits, fs);
    var timed :- ReplaceDurations(filled, Dedup(DurationKeys(filled)), today);
    Ok(ReplaceAll(timed, "(TID[]m)", ExternalUse) + "\n")
  }

  /** A slot `<d>` starts at index `i`. */
  predicate SlotAt(t: string, i: int) {
    0 <= i && i + 3 <= |t| && t[i] == '<' && IsDigit(t[i + 1]) && t[i + 2] == '>'
  }

  /** The digits of the `<d>` slots of a format, left to right. */
  function SlotDigits(t: string): (ds: seq<char>)
    ensures forall i :: 0 <= i < |ds| ==> IsDigit(ds[i])
    decreases |t|
  {
    if |t| < 3 then []
    else if SlotAt(t, 0) then [t[1]] + SlotDigits(t[3..])
    else SlotDigits(t[1..])
  }

  function SlotText(c: char): string
    requires IsDigit(c)
  {
    ['<', c, '>']
  }

  /** The field a slot digit selects, or the empty string when the item has
      no field at that index. */
  function Slot(fs: seq<string>, c: char): (r: string)
    requires IsDigit(c)
    ensures (c - '0') as int < |fs| ==> r == fs[(c - '0') as int]
    ensures (c - '0') as int >= |fs| ==> r == ""
  {
    var n := (c - '0') as int;
    if n < |fs| then fs[n] else ""
  }

  /** The slot replacements one after the other, in the order given. */
  function FillAll(t: string, ds: seq<char>, fs: seq<string>): string
    requires forall i :: 0 <= i < |ds| ==> IsDigit(ds[i])
    decreases |ds|
  {
    if |ds| == 0 then t
    else FillAll(ReplaceAll(t, SlotText(ds[0]), Slot(fs, ds[0])), ds[1..], fs)
  }

  /** A `TID[hhmm-HHMM]` starts at index `i`. */
  predicate DurationAt(t: string, i: int) {
    && 0 <= i && i + 14 <= |t|
    && t[i..i + 4] == "TID["
    && AllDigits(t[i + 4..i + 8]) && t[i + 8] == '-' && AllDigits(t[i + 9..i + 13])
    && t[i + 13] == ']'
  }

  /** The `hhmm-HHMM` keys of the duration markers in a line, left to right. */
  function DurationKeys(t: string): (ks: seq<string>)
    ensures forall i :: 0 <= i < |ks| ==> |ks[i]| == 9
    decreases |t|
  {
    if |t| < 14 then []
    else if DurationAt(t, 0) then [t[4..13]] + DurationKeys(t[14..])
    else DurationKeys(t[1..])
  }

  /** Replace each duration marker by the minutes of its clock range, one
      key after another; the first key whose duration raises ends the line. */
  function ReplaceDurations(t: string, keys: seq<string>, today: DateTime): (r: Result<string>)
    requires InRange(today)
    ensures r.Raised? ==> r.error == ValueError || r.error == OverflowError
    decreases |keys|
  {
    if |keys| == 0 then Ok(t)
    else
      var minutes :- TimeDelta(keys[0], today);
      ReplaceDurations(ReplaceAll(t, "TID[" + keys[0] + "]", minutes), keys[1..], today)
  }

  // ---------------------------------------------------------------------
  // The pass over the template

  /** A match of `\{([^}]+)\}` at the start of `t`: the index of the
      closing brace, which is the first `}` and leaves a non-empty body. */
  function BodyEnd(t: string): (r: Option<nat>)
    ensures r.Some? ==> 2 <= r.value < |t| && t[0] == '{' && t[r.value] == '}'
                        && '}' !in t[1..r.value]
    ensures r.None? && |t| > 0 && t[0] == '{' ==> |t| == 1 || t[1] == '}' || '}' !in t[1..]
  {
    if |t| == 0 || t[0] != '{' then None
    else
      match FindFrom(t, "}", 1)
      case None =>
        CharAbsent(t, '}', 1, |t|);
        None
      case Some(j) =>
        if j < 2 then None
        else
          CharAbsent(t, '}', 1, j);
          Some(j)
  }

  /** A template with every `{...}` placeholder replaced by its text, left
      to right; the first placeholder that raises ends the rendering. */
  function FormatString(template: string, data: Data, today: DateTime): (r: Result<string>)
    requires InRange(today)
    ensures '{' !in template ==> r == Ok(template)
    decreases |template|
  {
    if |template| == 0 then Ok("")
    else
      match BodyEnd(template)
      case Some(j) =>
        Cat(Subst(template[1..j], data, today), FormatString(template[j + 1..], data, today))
      case None =>
        assert template == [template[0]] + template[1..];
        Cat(Ok([template[0]]), FormatString(template[1..], data, today))
  }

  // ---------------------------------------------------------------------
  // Slot filling against a single-pass reference

  /** Every `<` of the format opens a slot. */
  predicate Separated(t: string) {
    forall i :: 0 <= i < |t| && t[i] == '<' ==> SlotAt(t, i)
  }

  /** No field text contains `<`. */
  predicate NoAngle(fs: seq<string>) {
    forall i :: 0 <= i < |fs| ==> '<' !in fs[i]
  }

  /** One pass over `t` replacing the slots whose digit is in `chosen`. */
  function FillSlots(t: string, chosen: set<char>, fs: seq<string>): string
    decreases |t|
  {
    if |t| == 0 then ""
    else if SlotAt(t, 0) then
      (if t[1] in chosen then Slot(fs, t[1]) else t[..3]) + FillSlots(t[3..], chosen, fs)
    else [t[0]] + FillSlots(t[1..], chosen, fs)
  }

  /** The reference: one pass replacing every slot by its field. */
  function Fill(t: string, fs: seq<string>): string
    decreases |t|
  {
    if |t| == 0 then ""
    else if SlotAt(t, 0) then Slot(fs, t[1]) + Fill(t[3..], fs)
    else [t[0]] + Fill(t[1..], fs)
  }

  lemma SeparatedTail(t: string, k: nat)
    requires Separated(t) && k <= |t|
    ensures Separated(t[k..])
  {
    forall i | 0 <= i < |t[k..]| && t[k..][i] == '<' ensures SlotAt(t[k..], i) {
      assert SlotAt(t, k + i);
    }
  }

  lemma {:induction false} FillSlotsNone(t: string, fs: seq<string>)
    ensures FillSlots(t, {}, fs) == t
    decreases |t|
  {
    if |t| > 0 {
      if SlotAt(t, 0) {
        FillSlotsNone(t[3..], fs);
        assert t[..3] + t[3..] == t;
      } else {
        FillSlotsNone(t[1..], fs);
        assert [t[0]] + t[1..] == t;
      }
    }
  }

  lemma SlotNoAngle(fs: seq<string>, c: char)
    requires NoAngle(fs) && IsDigit(c)
    ensures '<' !in Slot(fs, c)
  {
  }

  /** Replacing the slot `<c>` in a partly filled format fills exactly the
      `<c>` slots of the format: field texts contain no `<`, and the
      format's own `<` all open slots, so no new `<c>` can appear. */
  lemma {:induction false} FillStep(t: string, chosen: set<char>, c: char, fs: seq<string>)
    requires Separated(t) && NoAngle(fs) && IsDigit(c)
    ensures ReplaceAll(FillSlots(t, chosen, fs), SlotText(c), Slot(fs, c)) == FillSlots(t, chosen + {c}, fs)
    decreases |t|
  {
    if |t| > 0 {
      if SlotAt(t, 0) {
        SeparatedTail(t, 3);
        FillStep(t[3..], chosen, c, fs);
        FillStepSlot(t, chosen, c, fs);
      } else {
        SeparatedTail(t, 1);
        FillStep(t[1..], chosen, c, fs);
        ReplaceAllSkipsPrefix([t[0]], FillSlots(t[1..], chosen, fs), SlotText(c), Slot(fs, c));
      }
    }
  }

  /** The step of `FillStep` over a leading slot, given the rest. */
  lemma FillStepSlot(t: string, chosen: set<char>, c: char, fs: seq<string>)
    requires SlotAt(t, 0) && NoAngle(fs) && IsDigit(c)
    requires ReplaceAll(FillSlots(t[3..], chosen, fs), SlotText(c), Slot(fs, c))
             == FillSlots(t[3..], chosen + {c}, fs)
    ensures ReplaceAll(FillSlots(t, chosen, fs), SlotText(c), Slot(fs, c)) == FillSlots(t, chosen + {c}, fs)
  {
    var pat, rep := SlotText(c), Slot(fs, c);
    var d := t[1];
    var x := FillSlots(t[3..], chosen, fs);
    if d in chosen {
      assert d in chosen + {c};
      SlotNoAngle(fs, d);
      ReplaceAllSkipsPrefix(Slot(fs, d), x, pat, rep);
    } else if d == c {
      var s := t[..3] + x;
      assert s[..3] == pat && s[3..] == x;
    } else {
      assert d !in chosen + {c};
      SlotSkipped(t[..3], x, pat, rep);
    }
  }

  /** A slot other than the one replaced is copied through. */
  lemma SlotSkipped(h: string, x: string, pat: string, rep: string)
    requires |h| == 3 && |pat| == 3 && h[0] == '<' && IsDigit(h[1]) && h[2] == '>'
    requires pat[0] == '<' && h[1] != pat[1]
    ensures ReplaceAll(h + x, pat, rep) == h + ReplaceAll(x, pat, rep)
  {
    var s := h + x;
    assert s[..3] != pat by {
      assert s[..3][1] == h[1];
    }
    assert ReplaceAll(s, pat, rep) == [s[0]] + ReplaceAll(s[1..], pat, rep);
    assert s[1..] == h[1..] + x;
    ReplaceAllSkipsPrefix(h[1..], x, pat, rep);
    assert [s[0]] + h[1..] == h;
  }

  lemma {:induction false} FillAllSlots(t: string, chosen: set<char>, ds: seq<char>, fs: seq<string>)
    requires Separated(t) && NoAngle(fs)
    requires forall i :: 0 <= i < |ds| ==> IsDigit(ds[i])
    ensures FillAll(FillSlots(t, chosen, fs), ds, fs) == FillSlots(t, chosen + (set x | x in ds), fs)
    decreases |ds|
  {
    if |ds| > 0 {
      FillStep(t, chosen, ds[0], fs);
      FillAllSlots(t, chosen + {ds[0]}, ds[1..], fs);
      assert chosen + {ds[0]} + (set x | x in ds[1..]) == chosen + (set x | x in ds);
    } else {
      assert chosen + (set x | x in ds) == chosen;
    }
  }

  /** Choosing every digit that occurs in a slot fills like the reference. */
  lemma {:induction false} FillSlotsCovers(t: string, chosen: set<char>, fs: seq<string>)
    requires forall i :: 0 <= i < |SlotDigits(t)| ==> SlotDigits(t)[i] in chosen
    ensures FillSlots(t, chosen, fs) == Fill(t, fs)
    decreases |t|
  {
    if |t| > 0 {
      if SlotAt(t, 0) {
        assert SlotDigits(t) == [t[1]] + SlotDigits(t[3..]);
        assert SlotDigits(t)[0] == t[1] && t[1] in chosen;
        assert forall i :: 0 <= i < |SlotDigits(t[3..])| ==> SlotDigits(t[3..])[i] == SlotDigits(t)[i + 1];
        FillSlotsCovers(t[3..], chosen, fs);
      } else {
        assert |t| >= 3 ==> SlotDigits(t) == SlotDigits(t[1..]);
        FillSlotsCovers(t[1..], chosen, fs);
      }
    }
  }

  /** The slot step of a loop line, one `str.replace` per distinct digit,
      is the single-pass reference `Fill` whenever the format's `<` all
      open slots and no field contains `<`; the order of the distinct
      digits then does not matter. */
  lemma FillAllIsFill(format: string, fs: seq<string>)
    requires Separated(format) && NoAngle(fs)
    ensures forall i :: 0 <= i < |Dedup(SlotDigits(format))| ==> IsDigit(Dedup(SlotDigits(format))[i])
    ensures FillAll(format, Dedup(SlotDigits(format)), fs) == Fill(format, fs)
  {
    var ds := Dedup(SlotDigits(format));
    assert forall i :: 0 <= i < |ds| ==> ds[i] in SlotDigits(format);
    FillSlotsNone(format, fs);
    FillAllSlots(format, {}, ds, fs);
    var chosen := {} + (set x | x in ds);
    forall i | 0 <= i < |SlotDigits(format)| ensures SlotDigits(format)[i] in chosen {
      assert SlotDigits(format)[i] in ds;
    }
    FillSlotsCovers(format, chosen, fs);
  }

  lemma {:induction false} DurationKeysNone(t: string)
    requires !Contains(t, "TID[")
    ensures DurationKeys(t) == []
    decreases |t|
  {
    if |t| >= 14 {
      assert !OccursAt(t, "TID[", 0);
      NotContainsTail(t, "TID[");
      DurationKeysNone(t[1..]);
    }
  }

  lemma NoteNeedsTid(t: string)
    requires !Contains(t, "TID[")
    ensures !Contains(t, "(TID[]m)")
  {
    var note := "(TID[]m)";
    assert note[1..5] == "TID[";
    forall i | 0 <= i <= |t| ensures !OccursAt(t, note, i) {
      if i + 8 <= |t| {
        assert !OccursAt(t, "TID[", i + 1);
        var w := t[i..i + 8];
        assert forall k :: 0 <= k < 4 ==> w[1..5][k] == t[i + 1 + k] == t[i + 1..i + 5][k];
        assert w[1..5] == t[i + 1..i + 5];
      }
    }
  }

  /** With a separated format and fields without `<`, a loop line is its
      filled format with the durations and the note replaced. */
  lemma LineOfFill(format: string, fs: seq<string>, today: DateTime)
    requires InRange(today) && Separated(format) && NoAngle(fs)
    ensures var filled := Fill(format, fs);
            var timed := ReplaceDurations(filled, Dedup(DurationKeys(filled)), today);
            Line(format, fs, today)
            == if timed.Raised? then Raised(timed.error)
               else Ok(ReplaceAll(timed.value, "(TID[]m)", ExternalUse) + "\n")
  {
    FillAllIsFill(format, fs);
  }

  /** A loop line whose filled format mentions no `TID[` is that text plus
      a newline. */
  lemma LinePlain(format: string, fs: seq<string>, today: DateTime)
    requires InRange(today) && Separated(format) && NoAngle(fs)
    requires !Contains(Fill(format, fs), "TID[")
    ensures Line(format, fs, today) == Ok(Fill(format, fs) + "\n")
  {
    FillAllIsFill(format, fs);
    var filled := Fill(format, fs);
    DurationKeysNone(filled);
    NoteNeedsTid(filled);
    ReplaceAllNone(filled, "(TID[]m)", ExternalUse);
  }

  /** A `hhmm-HHMM` key of the duration pattern. */
  predicate DurationKey(k: string) {
    |k| == 9 && AllDigits(k[..4]) && k[4] == '-' && AllDigits(k[5..])
  }

  /** A duration starting one place later in the tail. */
  lemma DurationAtShift(s: string, i: nat)
    requires |s| > 0
    ensures DurationAt(s[1..], i) <==> DurationAt(s, i + 1)
  {
    if i + 15 <= |s| {
      assert s[1..][i..i + 4] == s[i + 1..i + 5];
      assert s[1..][i + 4..i + 8] == s[i + 5..i + 9];
      assert s[1..][i + 9..i + 13] == s[i + 10..i + 14];
    }
  }

  /** Text in which no duration starts adds no keys. */
  lemma {:induction false} DurationKeysAfter(p: string, t: string)
    requires forall i :: 0 <= i < |p| ==> !DurationAt(p + t, i)
    ensures DurationKeys(p + t) == DurationKeys(t)
    decreases |p|
  {
    var s := p + t;
    if |p| == 0 {
      assert s == t;
    } else if |s| >= 14 {
      assert !DurationAt(s, 0);
      assert s[1..] == p[1..] + t;
      forall i | 0 <= i < |p[1..]| ensures !DurationAt(p[1..] + t, i) {
        assert !DurationAt(s, i + 1);
        DurationAtShift(s, i);
      }
      DurationKeysAfter(p[1..], t);
    }
  }

  /** A duration at the start of the text gives its key first. */
  lemma DurationKeysHead(k: string, q: string)
    requires DurationKey(k)
    ensures DurationKeys("TID[" + k + "]" + q) == [k] + DurationKeys(q)
  {
    var t := "TID[" + k + "]" + q;
    assert t[..4] == "TID[" && t[4..8] == k[..4] && t[8] == '-' && t[9..13] == k[5..] && t[13] == ']';
    assert t[4..13] == k && t[14..] == q;
    assert DurationAt(t, 0);
  }

  /** No duration starts in a prefix in which `TID[` does not start. */
  lemma NoDurationIn(p: string, t: string)
    requires forall i :: 0 <= i < |p| ==> !OccursAt(p + t, "TID[", i)
    ensures forall i :: 0 <= i < |p| ==> !DurationAt(p + t, i)
  {
    forall i | 0 <= i < |p| ensures !DurationAt(p + t, i) {
      assert !OccursAt(p + t, "TID[", i);
    }
  }

  /** The text of `time_delta` is made of digits and a sign. */
  lemma MinutesText(m: string)
    requires ParseInt(m).Some?
    ensures |m| > 0 && forall k :: 0 <= k < |m| ==> IsDigit(m[k]) || m[k] == '-'
  {
    if !(|m| > 0 && AllDigits(m)) {
      assert m == [m[0]] + m[1..];
      forall k | 0 <= k < |m| ensures IsDigit(m[k]) || m[k] == '-' {
        if k > 0 {
          assert m[k] == m[1..][k - 1];
        }
      }
    }
  }

  /** The duration keys of a filled line holding exactly one duration. */
  lemma LineDurationKeys(p: string, k: string, q: string)
    requires DurationKey(k) && !Contains(p, "TID[") && !Contains(q, "TID[")
    ensures Dedup(DurationKeys(p + "TID[" + k + "]" + q)) == [k]
  {
    var t := "TID[" + k + "]" + q;
    assert p + "TID[" + k + "]" + q == p + t;
    NoStartIn(p, t, "TID[");
    NoDurationIn(p, t);
    DurationKeysAfter(p, t);
    DurationKeysHead(k, q);
    DurationKeysNone(q);
    assert [k][..0] == [];
  }

  /** Replacing the one duration of a line by its minutes. */
  lemma LineDurationReplaced(p: string, k: string, q: string, m: string)
    requires DurationKey(k) && !Contains(p, "TID[") && !Contains(q, "TID[")
    ensures ReplaceAll(p + "TID[" + k + "]" + q, "TID[" + k + "]", m) == p + m + q
  {
    var pat := "TID[" + k + "]";
    assert p + "TID[" + k + "]" + q == p + pat + q;
    assert pat == "TID[" + (k + "]");
    NotContainsLonger(p, "TID[", k + "]");
    NotContainsLonger(q, "TID[", k + "]");
    forall j | 1 <= j < |pat| ensures pat[j] != 'T' {
      if 4 <= j < 13 {
        assert pat[j] == k[j - 4];
        if j < 8 {
          assert k[j - 4] == k[..4][j - 4];
        } else if j > 8 {
          assert k[j - 4] == k[5..][j - 9];
        }
      }
    }
    assert (pat + q)[0] == 'T';
    NoStartIn(p, pat + q, pat);
    assert p + pat + q == p + (pat + q);
    ReplaceAllOccurrence(p, q, pat, m);
    ReplaceAllNone(q, pat, m);
  }

  /** Replacing a single duration key. */
  lemma ReplaceDurationsOne(t: string, k: string, today: DateTime)
    requires InRange(today)
    ensures var d := TimeDelta(k, today);
            ReplaceDurations(t, [k], today)
            == if d.Raised? then Raised(d.error) else Ok(ReplaceAll(t, "TID[" + k + "]", d.value))
  {
    assert [k][1..] == [];
  }

  /** The minutes put in for the one duration of a line bring no note. */
  lemma LineDurationText(p: string, k: string, q: string, m: string)
    requires DurationKey(k) && !Contains(p, "TID[") && !Contains(q, "TID[")
    requires ParseInt(m).Some?
    ensures ReplaceAll(ReplaceAll(p + "TID[" + k + "]" + q, "TID[" + k + "]", m), "(TID[]m)", ExternalUse)
            == p + m + q
  {
    LineDurationReplaced(p, k, q, m);
    MinutesText(m);
    NotContainsAround(p, m, q, "TID[");
    NoteNeedsTid(p + m + q);
    ReplaceAllNone(p + m + q, "(TID[]m)", ExternalUse);
  }

  /** A loop line whose filled format holds one `TID[hhmm-HHMM]` and no
      other `TID[`: the duration becomes `time_delta` of its key, or the
      line raises what `time_delta` raises. */
  lemma LineDuration(format: string, fs: seq<string>, today: DateTime, p: string, k: string, q: string)
    requires InRange(today) && Separated(format) && NoAngle(fs) && DurationKey(k)
    requires Fill(format, fs) == p + "TID[" + k + "]" + q
    requires !Contains(p, "TID[") && !Contains(q, "TID[")
    ensures TimeDelta(k, today).Ok? ==> Line(format, fs, today) == Ok(p + TimeDelta(k, today).value + q + "\n")
    ensures TimeDelta(k, today).Raised? ==> Line(format, fs, today) == Raised(TimeDelta(k, today).error)
  {
    LineOfFill(format, fs, today);
    var filled := Fill(format, fs);
    LineDurationKeys(p, k, q);
    ReplaceDurationsOne(filled, k, today);
    var d := TimeDelta(k, today);
    if d.Ok? {
      LineDurationText(p, k, q, d.value);
    }
  }

  /** The duration keys of a filled line whose only `TID[` is the note. */
  lemma LineNoteKeys(p: string, q: string)
    requires !Contains(p, "TID[") && !Contains(q, "TID[")
    ensures DurationKeys(p + "(TID[]m)" + q) == []
  {
    var note := "(TID[]m)";
    var t := note + q;
    assert p + "(TID[]m)" + q == p + t;
    NoStartIn(p, t, "TID[");
    NoDurationIn(p, t);
    DurationKeysAfter(p, t);
    forall i | 0 <= i < |note| ensures !DurationAt(note + q, i) {
      if i == 1 {
        assert (note + q)[5] == ']';
        if 1 + 14 <= |t| {
          assert t[5..9][0] == ']';
        }
      } else if i + 4 <= |t| {
        assert t[i..i + 4][0] == t[i] != 'T';
      }
    }
    DurationKeysAfter(note, q);
    DurationKeysNone(q);
  }

  /** A loop line whose filled format holds the note `(TID[]m)` and no
      other `TID[`: the note becomes the external-use text. */
  lemma LineNote(format: string, fs: seq<string>, today: DateTime, p: string, q: string)
    requires InRange(today) && Separated(format) && NoAngle(fs)
    requires Fill(format, fs) == p + "(TID[]m)" + q
    requires !Contains(p, "TID[") && !Contains(q, "TID[")
    ensures Line(format, fs, today) == Ok(p + ExternalUse + q + "\n")
  {
    LineOfFill(format, fs, today);
    var note := "(TID[]m)";
    LineNoteKeys(p, q);
    NoteNeedsTid(p);
    NoteNeedsTid(q);
    assert (note + q)[0] == '(';
    NoStartIn(p, note + q, note);
    assert p + note + q == p + (note + q);
    ReplaceAllOccurrence(p, q, note, ExternalUse);
    ReplaceAllNone(q, note, ExternalUse);
  }

  // ---------------------------------------------------------------------
  // The loop against a filter-then-map reference

  /** An item the `#ignore` test can be applied to: a non-empty string, or
      a non-empty list whose last element is a string, list or dictionary. */
  predicate Shaped(d: Value) {
    Last(d).Ok? && Member("#ignore", Last(d).value).Ok?
  }

  /** The items the loop keeps, in order. */
  function Kept(items: seq<Value>, skip: bool): (r: seq<Value>)
    ensures forall d :: d in r ==> d in items
    decreases |items|
  {
    if |items| == 0 then []
    else (if skip && Ignored(items[0]) then [] else [items[0]]) + Kept(items[1..], skip)
  }

  /** Each item's filled format and a newline, concatenated. */
  function Lines(ds: seq<Value>, format: string): string
    requires forall d :: d in ds ==> d.Str? || d.Arr?
    decreases |ds|
  {
    if |ds| == 0 then ""
    else Fill(format, FieldTexts(ds[0])) + "\n" + Lines(ds[1..], format)
  }

  /** An item whose line needs nothing but slot filling. */
  predicate LineReady(format: string, d: Value) {
    Shaped(d) && NoAngle(FieldTexts(d)) && !Contains(Fill(format, FieldTexts(d)), "TID[")
  }

  /** When every item is well shaped and can be filled, the loop is: drop the
      ignored items if asked to, then fill the format for each remaining
      item and end it with a newline. */
  lemma {:induction false} ExpandReference(items: seq<Value>, skip: bool, format: string, today: DateTime)
    requires InRange(today) && Separated(format)
    requires forall i :: 0 <= i < |items| ==> LineReady(format, items[i])
    ensures forall d :: d in Kept(items, skip) ==> d.Str? || d.Arr?
    ensures ExpandItems(items, skip, format, today) == Ok(Lines(Kept(items, skip), format))
    decreases |items|
  {
    assert forall d :: d in items ==> d.Str? || d.Arr?;
    if |items| > 0 {
      var d, rest := items[0], items[1..];
      assert forall i :: 0 <= i < |rest| ==> rest[i] == items[i + 1];
      ExpandReference(rest, skip, format, today);
      var tail := Lines(Kept(rest, skip), format);
      if skip && Ignored(d) {
        assert Kept(items, skip) == Kept(rest, skip);
        assert "" + tail == tail;
      } else {
        LinePlain(format, FieldTexts(d), today);
        var kept := Kept(items, skip);
        assert kept == [d] + Kept(rest, skip);
        assert kept[1..] == Kept(rest, skip);
      }
    }
  }

  // ---------------------------------------------------------------------
  // The pass over the template

  /** No position of `t` starts a placeholder. */
  predicate NoPlaceholder(t: string) {
    forall i :: 0 <= i < |t| ==> BodyEnd(t[i..]).None?
  }

  /** A template without placeholders comes back unchanged. */
  lemma {:induction false} FormatUnchanged(t: string, data: Data, today: DateTime)
    requires InRange(today) && NoPlaceholder(t)
    ensures FormatString(t, data, today) == Ok(t)
    decreases |t|
  {
    if |t| > 0 {
      assert t[0..] == t;
      assert forall i :: 0 <= i < |t[1..]| ==> t[1..][i..] == t[i + 1..];
      FormatUnchanged(t[1..], data, today);
      assert [t[0]] + t[1..] == t;
    }
  }

  /** In particular a template with no `{`, or with no `}`, is unchanged. */
  lemma FormatWithoutBraces(t: string, data: Data, today: DateTime)
    requires InRange(today) && ('{' !in t || '}' !in t)
    ensures FormatString(t, data, today) == Ok(t)
  {
    forall i | 0 <= i < |t| ensures BodyEnd(t[i..]).None? {
      var u := t[i..];
      assert forall k :: 0 <= k < |u| ==> u[k] == t[i + k];
    }
    FormatUnchanged(t, data, today);
  }

  /** Literal text before a placeholder is copied as it is. */
  lemma {:induction false} FormatLiteralPrefix(p: string, s: string, data: Data, today: DateTime)
    requires InRange(today) && '{' !in p
    ensures FormatString(p + s, data, today) == Cat(Ok(p), FormatString(s, data, today))
    decreases |p|
  {
    var x := FormatString(s, data, today);
    if |p| > 0 {
      var t := p + s;
      assert t[1..] == p[1..] + s;
      assert t[0] == p[0] && '{' !in p[1..];
      FormatLiteralHead(t, data, today);
      FormatLiteralPrefix(p[1..], s, data, today);
      CatOkPrefix([p[0]], p[1..], x);
      assert [p[0]] + p[1..] == p;
    } else {
      assert p + s == s;
      assert x.Ok? ==> "" + x.value == x.value;
    }
  }

  /** A template that does not open with `{` keeps its first character. */
  lemma FormatLiteralHead(t: string, data: Data, today: DateTime)
    requires InRange(today) && |t| > 0 && t[0] != '{'
    ensures FormatString(t, data, today) == Cat(Ok([t[0]]), FormatString(t[1..], data, today))
  {
    assert BodyEnd(t).None?;
  }

  lemma CatOkPrefix(a: string, b: string, x: Result<string>)
    ensures Cat(Ok(a), Cat(Ok(b), x)) == Cat(Ok(a + b), x)
  {
    if x.Ok? {
      assert a + (b + x.value) == (a + b) + x.value;
    }
  }

  /** `{body}` is a placeholder when the body is non-empty and has no `}`. */
  lemma BodyEndOf(body: string, rest: string)
    requires |body| > 0 && '}' !in body
    ensures BodyEnd("{" + body + "}" + rest) == Some(|body| + 1)
  {
    var s := "{" + body + "}" + rest;
    var j := |body| + 1;
    assert OccursAt(s, "}", j);
    match FindFrom(s, "}", 1)
    case None =>
    case Some(v) =>
      if v < j {
        assert s[v] == body[v - 1];
      }
  }

  /** Substituted text is never scanned again: the placeholder's value is
      followed by the formatting of the text after its closing brace. */
  lemma NoRescan(p: string, body: string, rest: string, data: Data, today: DateTime)
    requires InRange(today) && '{' !in p && |body| > 0 && '}' !in body
    ensures FormatString(p + "{" + body + "}" + rest, data, today)
            == Cat(Ok(p), Cat(Subst(body, data, today), FormatString(rest, data, today)))
  {
    var s := "{" + body + "}" + rest;
    assert p + "{" + body + "}" + rest == p + s;
    FormatLiteralPrefix(p, s, data, today);
    FormatPlaceholderHead(body, rest, data, today);
  }

  /** A template opening with a placeholder starts with its substitution. */
  lemma FormatPlaceholderHead(body: string, rest: string, data: Data, today: DateTime)
    requires InRange(today) && |body| > 0 && '}' !in body
    ensures FormatString("{" + body + "}" + rest, data, today)
            == Cat(Subst(body, data, today), FormatString(rest, data, today))
  {
    var s := "{" + body + "}" + rest;
    BodyEndOf(body, rest);
    assert s[1..|body| + 1] == body && s[|body| + 2..] == rest;
  }

  // ---------------------------------------------------------------------
  // Classification round trip

  /** The body text of a duration or loop placeholder. */
  function Print(p: Placeholder): string
    requires !p.Plain?
  {
    match p
    case Elapsed(key) => "TID[" + key + "]"
    case Each(key, skip, format) => "FOR[" + key + (if skip then "#" else "") + "][" + format + "]"
  }

  /** Loop placeholders that survive printing: parts free of `][`, a key
      that does not itself end in `#` unless the skip flag is set, a
      format with no trailing `]`. */
  predicate Printable(p: Placeholder) {
    match p
    case Elapsed(_) => true
    case Each(key, skip, format) =>
      && !Contains(key, "][") && !Contains(format, "][")
      && (skip || (|key| > 0 && key[|key| - 1] != '#'))
      && (|format| == 0 || format[|format| - 1] != ']')
    case Plain => false
  }

  lemma SplitBrackets(a: string, b: string)
    requires !Contains(a, "][") && !Contains(b, "][")
    ensures SplitPair(a + "][" + b, "][") == Ok((a, b))
  {
    var sep := "][";
    var s := a + sep + b;
    var i := |a|;
    assert s[i..i + 2] == sep;
    assert OccursAt(s, sep, i);
    forall v | 0 <= v < i ensures !OccursAt(s, sep, v) {
      if v + 2 <= i {
        assert s[v..v + 2] == a[v..v + 2];
        assert !OccursAt(a, sep, v);
      } else {
        assert s[v + 1] == ']';
      }
    }
    forall w | i + 2 <= w ensures !OccursAt(s, sep, w) {
      if w + 2 <= |s| {
        assert s[w..w + 2] == b[w - i - 2..w - i];
        assert !OccursAt(b, sep, w - i - 2);
      }
    }
    assert FindFrom(s, sep, 0) == Some(i);
    assert FindFrom(s, sep, i + 2).None?;
    assert s[..i] == a && s[i + 2..] == b;
  }

  lemma NoBracketsAppend(k: string, c: char)
    requires !Contains(k, "][") && c != '['
    ensures !Contains(k + [c], "][")
  {
    var s := k + [c];
    forall i | 0 <= i <= |s| ensures !OccursAt(s, "][", i) {
      if i + 2 <= |k| {
        assert s[i..i + 2] == k[i..i + 2];
        assert !OccursAt(k, "][", i);
      } else if i + 2 == |s| {
        assert s[i + 1] == c;
      }
    }
  }

  /** Classifying a printed duration or loop placeholder gives it back. */
  lemma ClassifyRoundTrip(p: Placeholder)
    requires Printable(p)
    ensures Classify(Print(p)) == Ok(p)
  {
    match p
    case Elapsed(key) => ClassifyElapsed(key);
    case Each(key, skip, format) => ClassifyEach(key, skip, format);
  }

  lemma ClassifyElapsed(key: string)
    ensures Classify("TID[" + key + "]") == Ok(Elapsed(key))
  {
    var body := "TID[" + key + "]";
    assert body[..4] == "TID[" && body[|body| - 1..] == "]";
    assert body[4..|body| - 1] == key;
  }

  lemma ClassifyEach(key: string, skip: bool, format: string)
    requires Printable(Each(key, skip, format))
    ensures Classify(Print(Each(key, skip, format))) == Ok(Each(key, skip, format))
  {
    var k := key + (if skip then "#" else "");
    var f := format + "]";
    var body := Print(Each(key, skip, format));
    EachBody(key, skip, format);
    ClassifyEachForm(body, k, f);
    RStripOne(format);
    if skip {
      assert |k| > 0 && k[|k| - 1] == '#';
      assert k[..|k| - 1] == key;
    } else {
      assert k == key && |k| > 0 && k[|k| - 1] != '#';
    }
  }

  /** A printed loop placeholder has the loop form and splits at `][` into
      the key (with its `#`) and the format (with its `]`). */
  lemma EachBody(key: string, skip: bool, format: string)
    requires Printable(Each(key, skip, format))
    ensures var body := Print(Each(key, skip, format));
            && !ElapsedForm(body) && EachForm(body)
            && SplitPair(body[4..], "][") == Ok((key + (if skip then "#" else ""), format + "]"))
  {
    var k := key + (if skip then "#" else "");
    var f := format + "]";
    var body := Print(Each(key, skip, format));
    assert body == "FOR[" + (k + "][" + f);
    assert body[..4] == "FOR[" && body[|body| - 1..] == "]";
    assert body[0] != 'T';
    assert body[4..] == k + "][" + f;
    if skip { NoBracketsAppend(key, '#'); } else { assert k == key; }
    NoBracketsAppend(format, ']');
    SplitBrackets(k, f);
  }

  /** How a `FOR[...]` body is decoded once it splits at `][`. */
  lemma ClassifyEachForm(body: string, k: string, f: string)
    requires !ElapsedForm(body) && EachForm(body)
    requires SplitPair(body[4..], "][") == Ok((k, f))
    ensures Classify(body) == (if |k| == 0 then Raised(IndexError)
                               else if k[|k| - 1] == '#' then Ok(Each(k[..|k| - 1], true, RStrip(f, ']')))
                               else Ok(Each(k, false, RStrip(f, ']'))))
  {
  }

  lemma RStripOne(format: string)
    requires |format| == 0 || format[|format| - 1] != ']'
    ensures RStrip(format + "]", ']') == format
  {
    assert (format + "]")[..|format|] == format;
  }

  // ---------------------------------------------------------------------
  // Placeholders in a template

  /** A leading `{TID[key]}` is replaced by `time_delta` of the bound
      value, or raises what that raises (`AttributeError` for a value that
      is not a string); the rest of the template follows. */
  lemma FormatElapsed(key: string, rest: string, data: Data, today: DateTime)
    requires InRange(today) && '}' !in key && key in data
    ensures FormatString("{TID[" + key + "]}" + rest, data, today)
            == Cat(Minutes(data[key], today), FormatString(rest, data, today))
    ensures data[key].Str? ==>
              FormatString("{TID[" + key + "]}" + rest, data, today)
              == Cat(TimeDelta(data[key].s, today), FormatString(rest, data, today))
  {
    var body := "TID[" + key + "]";
    assert "{TID[" + key + "]}" + rest == "{" + body + "}" + rest;
    ClassifyElapsed(key);
    FormatPlaceholderHead(body, rest, data, today);
  }

  /** A leading `{FOR[key][format]}` over a list of rows that need only slot
      filling is replaced by one filled line per kept row; the rest of the
      template follows. */
  lemma FormatEach(key: string, skip: bool, format: string, items: seq<Value>, rest: string,
                   data: Data, today: DateTime)
    requires InRange(today) && Printable(Each(key, skip, format))
    requires '}' !in Print(Each(key, skip, format))
    requires key in data && data[key] == Arr(items)
    requires Separated(format) && forall i :: 0 <= i < |items| ==> LineReady(format, items[i])
    ensures forall d :: d in Kept(items, skip) ==> d.Str? || d.Arr?
    ensures FormatString("{" + Print(Each(key, skip, format)) + "}" + rest, data, today)
            == Cat(Ok(Lines(Kept(items, skip), format)), FormatString(rest, data, today))
  {
    var body := Print(Each(key, skip, format));
    ClassifyRoundTrip(Each(key, skip, format));
    FormatPlaceholderHead(body, rest, data, today);
    ExpandReference(items, skip, format, today);
  }

  /** A template that is a single loop placeholder over a single row is
      that row's filled format and a newline. */
  lemma FormatSingleRow(key: string, format: string, row: Value, data: Data, today: DateTime)
    requires InRange(today) && Printable(Each(key, false, format))
    requires '}' !in Print(Each(key, false, format))
    requires data == map[key := Arr([row])]
    requires Separated(format) && LineReady(format, row)
    ensures row.Str? || row.Arr?
    ensures FormatString("{" + Print(Each(key, false, format)) + "}", data, today)
            == Ok(Fill(format, FieldTexts(row)) + "\n")
  {
    var body := Print(Each(key, false, format));
    var line := Fill(format, FieldTexts(row)) + "\n";
    FormatEach(key, false, format, [row], "", data, today);
    assert "{" + body + "}" + "" == "{" + body + "}";
    assert Kept([row], false) == [row];
    assert [row][1..] == [];
    assert Lines([row], format) == line + "" == line;
    assert FormatString("", data, today) == Ok("");
  }

  /** A worked loop: the rows `[["a", "b"]]` under the key `items` through
      the format `<0>-<1>` give the single line `a-b`. */
  lemma ExampleLoop(key: string, data: Data, today: DateTime)
    requires InRange(today) && key == "items"
    requires data == map[key := Arr([Arr([Str("a"), Str("b")])])]
    ensures FormatString("{FOR[" + key + "][<0>-<1>]}", data, today) == Ok("a-b\n")
  {
    assert ']' !in key && '}' !in key && key[|key| - 1] != '#';
    var body := ExamplePlaceholder(key);
    var t := "{" + body + "}";
    assert FormatString(t, data, today) == Ok("a-b\n") by {
      var row := Arr([Str("a"), Str("b")]);
      ExampleRowReady(row);
      FormatSingleRow(key, "<0>-<1>", row, data, today);
      assert "a-b" + "\n" == "a-b\n";
    }
  }

  /** A duration placeholder in a template: `{TID[key]}` with the key
      bound to `0900-1030` renders as `90`. */
  lemma ExampleElapsed(key: string, x: string, y: string, data: Data, today: DateTime)
    requires InRange(today) && '}' !in key && x == "0900" && y == "1030"
    requires data == map[key := Str(x + "-" + y)]
    ensures FormatString("{TID[" + key + "]}", data, today) == Ok("90")
  {
    var t := "{TID[" + key + "]}";
    assert FormatString(t + "", data, today)
           == Cat(TimeDelta(x + "-" + y, today), FormatString("", data, today)) by {
      FormatElapsed(key, "", data, today);
    }
    assert TimeDelta(x + "-" + y, today) == Ok("90") by {
      ExampleNinetyMinutes(x, y, today);
    }
    assert FormatString("", data, today) == Ok("");
    assert t + "" == t;
    assert "90" + "" == "90";
  }

  /** The example's placeholder, for a key without brackets, braces or a
      trailing `#`, is printable and prints to its text. */
  lemma ExamplePlaceholder(key: string) returns (body: string)
    requires |key| > 0 && ']' !in key && '}' !in key && key[|key| - 1] != '#'
    ensures body == Print(Each(key, false, "<0>-<1>")) == "FOR[" + key + "][<0>-<1>]"
    ensures Printable(Each(key, false, "<0>-<1>")) && '}' !in body
    ensures "{" + body + "}" == "{FOR[" + key + "][<0>-<1>]}"
  {
    body := Print(Each(key, false, "<0>-<1>"));
    assert body == "FOR[" + key + "][<0>-<1>]";
    assert Printable(Each(key, false, "<0>-<1>")) by {
      FirstCharAbsent(key, "][");
      FirstCharAbsent("<0>-<1>", "][");
    }
    assert '}' !in body by {
      forall k | 0 <= k < |body| ensures body[k] != '}' {
        if 4 <= k < 4 + |key| {
          assert body[k] == key[k - 4];
        }
      }
    }
    assert "{" + body + "}" == "{FOR[" + key + "][<0>-<1>]}";
  }

  /** The example's row is shaped and fills to `a-b`. */
  lemma ExampleRowReady(row: Value)
    requires row == Arr([Str("a"), Str("b")])
    ensures Separated("<0>-<1>") && LineReady("<0>-<1>", row)
    ensures Fill("<0>-<1>", FieldTexts(row)) == "a-b"
  {
    var format := "<0>-<1>";
    var fs := FieldTexts(row);
    assert fs == ["a", "b"];
    ExampleSeparated();
    assert Last(row) == Ok(Str("b"));
    ExampleFill(fs);
    FirstCharAbsent("a-b", "TID[");
  }

  lemma ExampleSeparated()
    ensures Separated("<0>-<1>")
  {
    var t := "<0>-<1>";
    forall i | 0 <= i < |t| && t[i] == '<' ensures SlotAt(t, i) {
      assert i == 0 || i == 4;
    }
  }

  lemma ExampleFill(fs: seq<string>)
    requires fs == ["a", "b"]
    ensures Fill("<0>-<1>", fs) == "a-b"
  {
    assert "<1>"[3..] == "" && SlotAt("<1>", 0);
    assert Fill("<1>", fs) == "b";
    assert "-<1>"[1..] == "<1>";
    assert Fill("-<1>", fs) == "-b";
    assert "<0>-<1>"[3..] == "-<1>" && SlotAt("<0>-<1>", 0);
  }
}

=== FILE: text.dfy ===
/** String primitives with Python's meaning: decimal digits, `int`/`str`
    conversions, substring search, `str.split`, `str.rstrip` and
    `str.replace`.  Strings are `seq<char>`.
 */
module Text {
  import opened Outcomes

  predicate IsDigit(c: char) {
    '0' <= c <= '9'
  }

  predicate AllDigits(s: string) {
    forall i :: 0 <= i < |s| ==> IsDigit(s[i])
  }

  /** The value of a run of decimal digits, leading zeros allowed. */
  function DigitsValue(s: string): nat
    requires AllDigits(s)
  {
    if |s| == 0 then 0 else DigitsValue(s[..|s| - 1]) * 10 + (s[|s| - 1] - '0') as int
  }

  function DigitAt(s: string, i: int): int
    requires 0 <= i < |s|
  {
    s[i] as int - '0' as int
  }

  lemma DigitsValueTwo(s: string)
    requires |s| == 2 && AllDigits(s)
    ensures DigitsValue(s) == 10 * DigitAt(s, 0) + DigitAt(s, 1)
  {
    var p := s[..1];
    assert p[..0] == [] && p[0] == s[0];
    assert DigitsValue(p) == DigitAt(s, 0);
  }

  lemma DigitsValueFour(s: string)
    requires |s| == 4 && AllDigits(s)
    ensures DigitsValue(s) == 1000 * DigitAt(s, 0) + 100 * DigitAt(s, 1) + 10 * DigitAt(s, 2) + DigitAt(s, 3)
  {
    DigitsValueTwo(s[..2]);
    assert s[..3][..2] == s[..2];
    assert DigitsValue(s[..3]) == DigitsValue(s[..2]) * 10 + DigitAt(s, 2);
  }

  function DigitChar(d: nat): (c: char)
    requires d < 10
    ensures IsDigit(c) && (c - '0') as int == d
  {
    ['0', '1', '2', '3', '4', '5', '6', '7', '8', '9'][d]
  }

  /** The decimal text of a non-negative integer. */
  function NatToString(n: nat): (r: string)
    ensures |r| > 0 && AllDigits(r)
  {
    if n < 10 then [DigitChar(n)] else NatToString(n / 10) + [DigitChar(n % 10)]
  }

  /** `str(i)` for any integer: a minus sign, then the digits of `|i|`. */
  function IntToString(i: int): string {
    if i < 0 then "-" + NatToString(-i) else NatToString(i)
  }

  /** `int(s)` restricted to the strings `str` produces: optional minus, then digits. */
  function ParseInt(s: string): Option<int> {
    if |s| > 1 && s[0] == '-' && AllDigits(s[1..]) then Some(-(DigitsValue(s[1..]) as int))
    else if |s| > 0 && AllDigits(s) then Some(DigitsValue(s))
    else None
  }

  lemma {:induction false} DigitsValueOfNatToString(n: nat)
    ensures DigitsValue(NatToString(n)) == n
  {
    if n >= 10 {
      var s := NatToString(n);
      DigitsValueOfNatToString(n / 10);
      assert s[..|s| - 1] == NatToString(n / 10);
    }
  }

  /** `int(str(i)) == i`: the decimal rendering loses nothing. */
  lemma IntToStringRoundTrip(i: int)
    ensures ParseInt(IntToString(i)) == Some(i)
  {
    var s := IntToString(i);
    if i < 0 {
      var d := NatToString(-i);
      DigitsValueOfNatToString(-i);
      assert s == "-" + d;
      assert s[1..] == d;
      assert ParseInt(s) == Some(-(DigitsValue(d) as int));
    } else {
      var d := NatToString(i);
      DigitsValueOfNatToString(i);
      assert s == d && IsDigit(s[0]);
      assert ParseInt(s) == Some(DigitsValue(d));
    }
  }

  predicate StartsWith(s: string, p: string) {
    |p| <= |s| && s[..|p|] == p
  }

  predicate EndsWith(s: string, q: string) {
    |q| <= |s| && s[|s| - |q|..] == q
  }

  /** `pat` occurs in `s` at index `i`. */
  predicate OccursAt(s: string, pat: string, i: int) {
    0 <= i && i + |pat| <= |s| && s[i..i + |pat|] == pat
  }

  /** `pat in s` for strings. */
  predicate Contains(s: string, pat: string) {
    exists i | 0 <= i <= |s| :: OccursAt(s, pat, i)
  }

  /** `s.find(pat, k)`: the first index at or after `k` where `pat` occurs. */
  function FindFrom(s: string, pat: string, k: nat): (r: Option<nat>)
    requires k <= |s|
    ensures r.Some? ==> k <= r.value && OccursAt(s, pat, r.value)
    ensures r.Some? ==> forall j :: k <= j < r.value ==> !OccursAt(s, pat, j)
    ensures r.None? ==> forall j :: k <= j ==> !OccursAt(s, pat, j)
    decreases |s| - k
  {
    if k + |pat| > |s| then None
    else if s[k..k + |pat|] == pat then Some(k)
    else FindFrom(s, pat, k + 1)
  }

  /** Unpacking a split into two names: succeeds only when `sep` splits `s`
      into exactly two parts, otherwise raises `ValueError`. */
  function SplitPair(s: string, sep: string): (r: Result<(string, string)>)
    requires |sep| > 0
    ensures r.Ok? ==> s == r.value.0 + sep + r.value.1
    ensures r.Ok? ==> !Contains(r.value.0, sep) && !Contains(r.value.1, sep)
    ensures r.Raised? ==> r.error == ValueError
    ensures !Contains(s, sep) ==> r.Raised?
  {
    match FindFrom(s, sep, 0)
    case None => Raised(ValueError)
    case Some(i) =>
      var a, b := s[..i], s[i + |sep|..];
      if FindFrom(s, sep, i + |sep|).Some? then Raised(ValueError)
      else
        SplitAround(s, sep, i);
        Ok((a, b))
  }

  /** Cutting `s` around the only occurrence of `sep` leaves two parts
      free of `sep`. */
  lemma SplitAround(s: string, sep: string, i: nat)
    requires |sep| > 0 && OccursAt(s, sep, i)
    requires forall j :: 0 <= j < i ==> !OccursAt(s, sep, j)
    requires forall j :: i + |sep| <= j ==> !OccursAt(s, sep, j)
    ensures s == s[..i] + sep + s[i + |sep|..]
    ensures !Contains(s[..i], sep) && !Contains(s[i + |sep|..], sep)
  {
    assert s == s[..i] + s[i..i + |sep|] + s[i + |sep|..];
    NoneBefore(s, sep, i);
    NoneAfter(s, sep, i + |sep|);
  }

  lemma NoneBefore(s: string, sep: string, i: nat)
    requires |sep| > 0 && i <= |s|
    requires forall j :: 0 <= j < i ==> !OccursAt(s, sep, j)
    ensures !Contains(s[..i], sep)
  {
    var a := s[..i];
    forall j | 0 <= j <= |a| ensures !OccursAt(a, sep, j) {
      if j + |sep| <= |a| {
        assert a[j..j + |sep|] == s[j..j + |sep|];
        assert !OccursAt(s, sep, j);
      }
    }
  }

  lemma NoneAfter(s: string, sep: string, k: nat)
    requires k <= |s|
    requires forall j :: k <= j ==> !OccursAt(s, sep, j)
    ensures !Contains(s[k..], sep)
  {
    var b := s[k..];
    forall j | 0 <= j <= |b| ensures !OccursAt(b, sep, j) {
      if j + |sep| <= |b| {
        assert s[k + j..k + j + |sep|] == b[j..j + |sep|];
        assert !OccursAt(s, sep, k + j);
      }
    }
  }

  /** `s.rstrip(c)`: drop every trailing occurrence of `c`. */
  function RStrip(s: string, c: char): (r: string)
    ensures StartsWith(s, r)
    ensures forall i :: |r| <= i < |s| ==> s[i] == c
    ensures |r| == 0 || r[|r| - 1] != c
  {
    if |s| > 0 && s[|s| - 1] == c then RStrip(s[..|s| - 1], c) else s
  }

  /** `s.replace(pat, rep)`: leftmost, non-overlapping replacement. */
  function ReplaceAll(s: string, pat: string, rep: string): (r: string)
    requires |pat| > 0
    ensures rep == pat ==> r == s
    decreases |s|
  {
    if |s| < |pat| then s
    else if s[..|pat|] == pat then rep + ReplaceAll(s[|pat|..], pat, rep)
    else [s[0]] + ReplaceAll(s[1..], pat, rep)
  }

  /** Text that does not contain the first character of the pattern is
      copied through a replacement unchanged, and the replacement resumes
      cleanly after it. */
  lemma {:induction false} ReplaceAllSkipsPrefix(a: string, b: string, pat: string, rep: string)
    requires |pat| > 0 && pat[0] !in a
    ensures ReplaceAll(a + b, pat, rep) == a + ReplaceAll(b, pat, rep)
    decreases |a|
  {
    if |a| > 0 {
      var s := a + b;
      if |s| < |pat| {
        ReplaceAllShort(s, pat, rep);
        ReplaceAllShort(b, pat, rep);
      } else {
        assert s[0] == a[0] && s[0] != pat[0];
        assert s[..|pat|] != pat;
        assert s[1..] == a[1..] + b;
        ReplaceAllSkipsPrefix(a[1..], b, pat, rep);
        assert ReplaceAll(s, pat, rep) == [s[0]] + ReplaceAll(s[1..], pat, rep);
        assert [a[0]] + a[1..] == a;
      }
    } else {
      assert a + b == b;
    }
  }

  lemma ReplaceAllShort(s: string, pat: string, rep: string)
    requires |pat| > 0 && |s| < |pat|
    ensures ReplaceAll(s, pat, rep) == s
  {
  }

  /** A string with no occurrence of the pattern's first character is left alone. */
  lemma ReplaceAllAbsent(s: string, pat: string, rep: string)
    requires |pat| > 0 && pat[0] !in s
    ensures ReplaceAll(s, pat, rep) == s
  {
    ReplaceAllSkipsPrefix(s, "", pat, rep);
    assert s + "" == s;
  }

  /** An occurrence in the tail is an occurrence one place later. */
  lemma OccursShift(s: string, pat: string, i: nat)
    requires |s| > 0
    ensures OccursAt(s[1..], pat, i) <==> OccursAt(s, pat, i + 1)
  {
    if i + 1 + |pat| <= |s| {
      assert s[i + 1..i + 1 + |pat|] == s[1..][i..i + |pat|];
    }
  }

  /** No occurrence starts in the tail of a prefix in which none starts. */
  lemma NoOccurrenceTail(a: string, b: string, pat: string)
    requires |a| > 0 && forall i :: 0 <= i < |a| ==> !OccursAt(a + b, pat, i)
    ensures forall i :: 0 <= i < |a[1..]| ==> !OccursAt(a[1..] + b, pat, i)
  {
    var s := a + b;
    assert s[1..] == a[1..] + b;
    forall i | 0 <= i < |a[1..]| ensures !OccursAt(a[1..] + b, pat, i) {
      assert !OccursAt(s, pat, i + 1);
      OccursShift(s, pat, i);
    }
  }

  /** Text in which no occurrence of the pattern starts is copied through
      a replacement unchanged, and the replacement resumes after it. */
  lemma {:induction false} ReplaceAllAfter(a: string, b: string, pat: string, rep: string)
    requires |pat| > 0
    requires forall i :: 0 <= i < |a| ==> !OccursAt(a + b, pat, i)
    ensures ReplaceAll(a + b, pat, rep) == a + ReplaceAll(b, pat, rep)
    decreases |a|
  {
    if |a| > 0 {
      var s := a + b;
      if |s| < |pat| {
        ReplaceAllShort(s, pat, rep);
        ReplaceAllShort(b, pat, rep);
      } else {
        var t := a[1..] + b;
        var r := ReplaceAll(b, pat, rep);
        assert ReplaceAll(t, pat, rep) == a[1..] + r by {
          NoOccurrenceTail(a, b, pat);
          ReplaceAllAfter(a[1..], b, pat, rep);
        }
        assert ReplaceAll(s, pat, rep) == [s[0]] + ReplaceAll(t, pat, rep) by {
          assert !OccursAt(s, pat, 0);
          assert s[1..] == t;
        }
        assert [s[0]] + (a[1..] + r) == a + r by {
          assert [a[0]] + a[1..] == a;
        }
      }
    } else {
      assert a + b == b;
    }
  }

  /** The first occurrence of the pattern is replaced and the rest is
      processed from just after it: text before the first occurrence is
      kept as it is. */
  lemma ReplaceAllOccurrence(a: string, b: string, pat: string, rep: string)
    requires |pat| > 0
    requires forall i :: 0 <= i < |a| ==> !OccursAt(a + pat + b, pat, i)
    ensures ReplaceAll(a + pat + b, pat, rep) == a + rep + ReplaceAll(b, pat, rep)
  {
    assert a + pat + b == a + (pat + b);
    ReplaceAllAfter(a, pat + b, pat, rep);
    var s := pat + b;
    assert s[..|pat|] == pat && s[|pat|..] == b;
  }

  /** A text free of a pattern, followed by a text whose first character
      does not occur after the pattern's first position: no occurrence of
      the pattern starts in the first text. */
  lemma NoStartIn(p: string, t: string, pat: string)
    requires |t| > 0 && !Contains(p, pat)
    requires forall j :: 1 <= j < |pat| ==> pat[j] != t[0]
    ensures forall i :: 0 <= i < |p| ==> !OccursAt(p + t, pat, i)
  {
    forall i | 0 <= i < |p| ensures !OccursAt(p + t, pat, i) {
      if i + |pat| <= |p| {
        assert (p + t)[i..i + |pat|] == p[i..i + |pat|];
        assert !OccursAt(p, pat, i);
      } else if i + |pat| <= |p + t| {
        var j := |p| - i;
        assert (p + t)[i..i + |pat|][j] == t[0] != pat[j];
      }
    }
  }

  /** A text free of a pattern is free of every longer pattern it starts. */
  lemma NotContainsLonger(s: string, pat: string, ext: string)
    requires !Contains(s, pat)
    ensures !Contains(s, pat + ext)
  {
    forall i | 0 <= i <= |s| ensures !OccursAt(s, pat + ext, i) {
      if i + |pat + ext| <= |s| {
        assert !OccursAt(s, pat, i);
        assert s[i..i + |pat|] == s[i..i + |pat + ext|][..|pat|];
        assert (pat + ext)[..|pat|] == pat;
      }
    }
  }

  /** Text made of digits and `-` between two texts free of a pattern:
      when no character of the pattern is a digit or `-`, the pattern does
      not occur in the whole. */
  lemma NotContainsAround(p: string, m: string, q: string, pat: string)
    requires |m| > 0 && |pat| > 0 && !Contains(p, pat) && !Contains(q, pat)
    requires forall k :: 0 <= k < |m| ==> IsDigit(m[k]) || m[k] == '-'
    requires forall j :: 0 <= j < |pat| ==> !IsDigit(pat[j]) && pat[j] != '-'
    ensures !Contains(p + m + q, pat)
  {
    var s := p + m + q;
    forall i | 0 <= i <= |s| ensures !OccursAt(s, pat, i) {
      if i + |pat| <= |s| {
        if i + |pat| <= |p| {
          assert s[i..i + |pat|] == p[i..i + |pat|];
          assert !OccursAt(p, pat, i);
        } else if i >= |p| + |m| {
          var i' := i - |p| - |m|;
          assert s[i..i + |pat|] == q[i'..i' + |pat|];
          assert !OccursAt(q, pat, i');
        } else {
          var j := if i < |p| then |p| else i;
          assert s[j] == m[j - |p|];
          assert s[i..i + |pat|][j - i] != pat[j - i];
        }
      }
    }
  }

  /** A pattern absent from a text is absent from its tail. */
  /** A text without the first character of a pattern does not contain it. */
  lemma FirstCharAbsent(s: string, pat: string)
    requires |pat| > 0 && pat[0] !in s
    ensures !Contains(s, pat)
  {
    forall i | 0 <= i <= |s| ensures !OccursAt(s, pat, i) {
      if i + |pat| <= |s| {
        assert s[i..i + |pat|][0] == s[i];
      }
    }
  }

  lemma NotContainsTail(s: string, pat: string)
    requires |s| > 0 && !Contains(s, pat)
    ensures !Contains(s[1..], pat)
  {
    forall i | 0 <= i <= |s[1..]| ensures !OccursAt(s[1..], pat, i) {
      assert !OccursAt(s, pat, i + 1);
      if i + |pat| <= |s[1..]| {
        assert s[i + 1..i + 1 + |pat|] == s[1..][i..i + |pat|];
      }
    }
  }

  /** A character that never occurs as a one-character pattern between `a`
      and `b` is not in that slice. */
  lemma CharAbsent(t: string, c: char, a: nat, b: nat)
    requires a <= b <= |t|
    requires forall i :: a <= i < b ==> !OccursAt(t, [c], i)
    ensures c !in t[a..b]
  {
    forall k | 0 <= k < b - a ensures t[a..b][k] != c {
      assert !OccursAt(t, [c], a + k);
      assert t[a + k..a + k + 1] == [t[a + k]];
    }
  }

  /** A text in which the pattern does not occur is left unchanged. */
  lemma {:induction false} ReplaceAllNone(s: string, pat: string, rep: string)
    requires |pat| > 0 && !Contains(s, pat)
    ensures ReplaceAll(s, pat, rep) == s
    decreases |s|
  {
    if |s| >= |pat| {
      assert !OccursAt(s, pat, 0);
      NotContainsTail(s, pat);
      ReplaceAllNone(s[1..], pat, rep);
      assert [s[0]] + s[1..] == s;
    }
  }

  /** The parts `str.split` gives for a one-character separator. */
  function SplitOn(s: string, c: char): (parts: seq<string>)
    ensures |parts| >= 1
    ensures forall i :: 0 <= i < |parts| ==> c !in parts[i]
    decreases |s|
  {
    if |s| == 0 then [""]
    else
      var rest := SplitOn(s[1..], c);
      if s[0] == c then [""] + rest
      else [[s[0]] + rest[0]] + rest[1..]
  }

  /** The parts joined with `sep` between neighbours, as `str.join` does. */
  function Join(sep: string, parts: seq<string>): string
    decreases |parts|
  {
    if |parts| == 0 then ""
    else if |parts| == 1 then parts[0]
    else parts[0] + sep + Join(sep, parts[1..])
  }

  /** Splitting and re-joining on the same character gives the text back. */
  lemma {:induction false} JoinSplitOn(s: string, c: char)
    ensures Join([c], SplitOn(s, c)) == s
    decreases |s|
  {
    if |s| > 0 {
      var rest := SplitOn(s[1..], c);
      JoinSplitOn(s[1..], c);
      if s[0] == c {
        assert SplitOn(s, c) == [""] + rest;
        assert ([""] + rest)[1..] == rest;
      } else {
        var parts := SplitOn(s, c);
        assert parts == [[s[0]] + rest[0]] + rest[1..];
        if |rest| == 1 {
          assert parts == [[s[0]] + rest[0]];
        } else {
          assert parts[1..] == rest[1..];
          assert Join([c], rest) == rest[0] + [c] + Join([c], rest[1..]);
        }
      }
    }
  }

  /** A text without the separator splits into itself alone; text, separator,
      text splits into the two pieces. */
  lemma {:induction false} SplitOnNone(s: string, c: char)
    requires c !in s
    ensures SplitOn(s, c) == [s]
    decreases |s|
  {
    if |s| > 0 {
      assert c !in s[1..];
      SplitOnNone(s[1..], c);
      assert [s[0]] + s[1..] == s;
    }
  }

  /** Splitting at a separator between two texts: the pieces of the text
      before it, then the pieces of the text after it. */
  lemma {:induction false} SplitOnConcat(a: string, b: string, c: char)
    ensures SplitOn(a + [c] + b, c) == SplitOn(a, c) + SplitOn(b, c)
    decreases |a|
  {
    var s := a + [c] + b;
    if |a| == 0 {
      assert s[1..] == b;
    } else {
      assert s[1..] == a[1..] + [c] + b;
      SplitOnConcat(a[1..], b, c);
    }
  }

  lemma {:induction false} SplitOnOnce(a: string, b: string, c: char)
    requires c !in a && c !in b
    ensures SplitOn(a + [c] + b, c) == [a, b]
    decreases |a|
  {
    var s := a + [c] + b;
    if |a| == 0 {
      assert s[1..] == b;
      SplitOnNone(b, c);
    } else {
      assert s[1..] == a[1..] + [c] + b;
      SplitOnOnce(a[1..], b, c);
      assert [s[0]] + a[1..] == a;
    }
  }

  /** The parts joined with nothing between them. */
  function Concat(parts: seq<string>): (r: string)
    ensures |parts| == 1 ==> r == parts[0]
    decreases |parts|
  {
    if |parts| == 0 then "" else parts[0] + Concat(parts[1..])
  }

  /** The distinct elements of `xs`, each at its first appearance. */
  function Dedup<T(==,!new)>(xs: seq<T>): (r: seq<T>)
    ensures forall i, j :: 0 <= i < j < |r| ==> r[i] != r[j]
    ensures forall x :: x in r <==> x in xs
    decreases |xs|
  {
    if |xs| == 0 then []
    else
      var n := |xs| - 1;
      var p := Dedup(xs[..n]);
      assert forall x :: x in xs <==> x in xs[..n] || x == xs[n];
      if xs[n] in p then p else p + [xs[n]]
  }
}

=== FILE: timerange.dfy ===
/** The partial date-time range mini-language of `parse_time` (main.py:7-57).

    A token is `#`, an optional start fragment, an optional `-`, and an
    optional end fragment.  A fragment is an optional 4-digit group, an
    optional 4-digit group, an optional `T`, then optional 2-digit hour,
    minute and second groups.  Every group is optional and the pattern has
    no end anchor, so matching never backtracks: each group is taken when
    the next characters are digits of the right width and skipped otherwise.
    `ScanFragment` is that greedy scanner.

    `Normalize` reinterprets a lone first 4-digit group as month and day,
    and `Resolve` applies the defaulting and end-selection rules against an
    explicit reference date standing in for `datetime.today()`.
 */
module TimeRange {
  import opened Outcomes
  import opened Text
  import opened Dates

  /** The five capture groups of one fragment, as matched (month and day
      are still one 4-digit group here). */
  datatype Groups = Groups(
    year: Option<string>,
    monthDay: Option<string>,
    hour: Option<string>,
    minute: Option<string>,
    second: Option<string>)

  /** The six fields of one fragment after the month/day reinterpretation. */
  datatype Fields = Fields(
    year: Option<string>,
    month: Option<string>,
    day: Option<string>,
    hour: Option<string>,
    minute: Option<string>,
    second: Option<string>)

  datatype Span = Span(start: DateTime, end: DateTime)

  predicate IsToken(s: string) {
    |s| > 0 && s[0] == '#'
  }

  /** An absent group, or exactly `n` decimal digits. */
  predicate Digits(g: Option<string>, n: nat) {
    g.Some? ==> |g.value| == n && AllDigits(g.value)
  }

  predicate Scanned(g: Groups) {
    Digits(g.year, 4) && Digits(g.monthDay, 4) && Digits(g.hour, 2) && Digits(g.minute, 2) && Digits(g.second, 2)
  }

  /** Field widths are right, month and day come together, and a year never
      stands without them. */
  predicate Normal(f: Fields) {
    && Digits(f.year, 4) && Digits(f.month, 2) && Digits(f.day, 2)
    && Digits(f.hour, 2) && Digits(f.minute, 2) && Digits(f.second, 2)
    && (f.month.Some? <==> f.day.Some?)
    && (f.year.Some? ==> f.month.Some?)
  }

  function Flat(g: Option<string>): string {
    if g.Some? then g.value else ""
  }

  /** One optional fixed-width digit group: taken when the next `n`
      characters are digits, skipped otherwise. */
  function Group(s: string, n: nat): (r: (Option<string>, string))
    ensures r.0.Some? ==> |s| >= n && r.0.value == s[..n] && AllDigits(s[..n]) && r.1 == s[n..]
    ensures r.0.None? ==> !(|s| >= n && AllDigits(s[..n])) && r.1 == s
  {
    if |s| >= n && AllDigits(s[..n]) then (Some(s[..n]), s[n..]) else (None, s)
  }

  /** One optional literal character. */
  function Skip(s: string, c: char): string {
    if |s| > 0 && s[0] == c then s[1..] else s
  }

  /** One fragment, scanned greedily from the front of `s`; returns the groups
      and the unread rest. */
  function ScanFragment(s: string): (r: (Groups, string))
    ensures Scanned(r.0)
    ensures r.0.year.Some? <==> |s| >= 4 && AllDigits(s[..4])
  {
    var (year, s1) := Group(s, 4);
    var (monthDay, s2) := Group(s1, 4);
    var s3 := Skip(s2, 'T');
    var (hour, s4) := Group(s3, 2);
    var (minute, s5) := Group(s4, 2);
    var (second, s6) := Group(s5, 2);
    (Groups(year, monthDay, hour, minute, second), s6)
  }

  /** The match of the whole pattern: present exactly for strings that start
      with `#`, since everything after the `#` is optional. */
  function Scan(token: string): (r: Option<(Groups, Groups)>)
    ensures r.Some? <==> IsToken(token)
    ensures r.Some? ==> Scanned(r.value.0) && Scanned(r.value.1)
  {
    if IsToken(token) then
      var (start, rest) := ScanFragment(token[1..]);
      var (end, _) := ScanFragment(Skip(rest, '-'));
      Some((start, end))
    else None
  }

  /** A 4-digit first group without a following month/day group is read as
      month and day, and is then no longer a year (main.py:20-31). */
  function Normalize(g: Groups): (f: Fields)
    requires Scanned(g)
    ensures Normal(f)
    ensures f.year.Some? <==> g.year.Some? && g.monthDay.Some?
    ensures f.month.Some? <==> g.year.Some? || g.monthDay.Some?
    ensures Flat(f.year) + Flat(f.month) + Flat(f.day) == Flat(g.year) + Flat(g.monthDay)
    ensures f.hour == g.hour && f.minute == g.minute && f.second == g.second
  {
    if g.monthDay.None? && g.year.Some? then
      var y := g.year.value;
      assert y == y[..2] + y[2..];
      Fields(None, Some(y[..2]), Some(y[2..]), g.hour, g.minute, g.second)
    else if g.monthDay.Some? then
      var md := g.monthDay.value;
      assert md == md[..2] + md[2..];
      Fields(g.year, Some(md[..2]), Some(md[2..]), g.hour, g.minute, g.second)
    else
      Fields(None, None, None, g.hour, g.minute, g.second)
  }

  /** `int(x) if x else default` for an optional digit group. */
  function Num(g: Option<string>, default: int): int
    requires g.Some? ==> AllDigits(g.value)
  {
    if g.Some? then DigitsValue(g.value) else default
  }

  /** A date-time produced by adding a `timedelta`: `OverflowError` past year 9999. */
  function Bounded(dt: DateTime): (r: Result<DateTime>)
    requires WellFormed(dt)
    ensures r.Ok? <==> InRange(dt)
    ensures r.Ok? ==> r.value == dt
    ensures r.Raised? ==> r.error == OverflowError
  {
    if dt.year <= MaxYear then Ok(dt) else Raised(OverflowError)
  }

  /** The start: missing date fields from the reference date, missing clock
      fields 0 (main.py:36-41). */
  function StartOf(st: Fields, today: DateTime): (r: Result<DateTime>)
    requires Normal(st)
    ensures r.Ok? ==> InRange(r.value)
    ensures r.Raised? ==> r.error == ValueError
  {
    Make(Num(st.year, today.year), Num(st.month, today.month), Num(st.day, today.day),
         Num(st.hour, 0), Num(st.minute, 0), Num(st.second, 0))
  }

  /** The end, by the first rule that applies (main.py:42-55). */
  function EndOf(st: Fields, en: Fields, start: DateTime, today: DateTime): (r: Result<DateTime>)
    requires Normal(st) && Normal(en) && InRange(start)
    ensures r.Ok? ==> InRange(r.value)
    ensures r.Raised? ==> r.error == ValueError || r.error == OverflowError
  {
    if en.year.Some? then
      Make(Num(en.year, 0), Num(en.month, 0), Num(en.day, 0), Num(en.hour, 0), Num(en.minute, 0), Num(en.second, 0))
    else if en.month.Some? && en.day.Some? then
      Make(today.year, Num(en.month, 0), Num(en.day, 0), Num(en.hour, 0), Num(en.minute, 0), Num(en.second, 0))
    else if en.hour.Some? then
      Make(start.year, start.month, start.day, Num(en.hour, 0), Num(en.minute, 0), Num(en.second, 0))
    else if st.month.Some? && st.day.Some? && st.hour.None? then
      Bounded(AddOneDay(start))
    else if st.hour.Some? then
      Bounded(AddOneHour(start))
    else
      Ok(start)
  }

  /** The start and end date-times of two normalized fragments (main.py:36-55). */
  function Resolve(st: Fields, en: Fields, today: DateTime): (r: Result<Span>)
    requires Normal(st) && Normal(en)
    ensures r.Ok? ==> InRange(r.value.start) && InRange(r.value.end)
    ensures r.Raised? ==> r.error == ValueError || r.error == OverflowError
  {
    var start :- StartOf(st, today);
    var end :- EndOf(st, en, start, today);
    Ok(Span(start, end))
  }

  /** `parse_time(s)`: `Ok(None)` is the `(None, None)` answer, `Raised` an
      exception from `datetime`. */
  function ParseTime(s: string, today: DateTime): (r: Result<Option<Span>>)
    requires InRange(today)
    ensures r == Ok(None) <==> !IsToken(s)
    ensures r.Ok? && r.value.Some? ==> InRange(r.value.value.start) && InRange(r.value.value.end)
    ensures r.Raised? ==> r.error == ValueError || r.error == OverflowError
  {
    match Scan(s)
    case None => Ok(None)
    case Some((a, b)) =>
      var span :- Resolve(Normalize(a), Normalize(b), today);
      Ok(Some(span))
  }

  /** Once the token is matched, parsing is resolving the two fragments. */
  lemma ParseScanned(s: string, a: Groups, b: Groups, today: DateTime)
    requires InRange(today) && Scan(s) == Some((a, b))
    ensures var r := Resolve(Normalize(a), Normalize(b), today);
            ParseTime(s, today) == if r.Ok? then Ok(Some(r.value)) else Raised(r.error)
  {
  }

  /** Where the start comes from: each date field from the token when the
      fragment has one (a lone 4-digit group counting as month and day),
      otherwise from the reference date; each clock field from the token or 0. */
  lemma StartDefaults(s: string, today: DateTime)
    requires InRange(today)
    requires ParseTime(s, today).Ok? && ParseTime(s, today).value.Some?
    ensures
      var a := Scan(s).value.0;
      var start := ParseTime(s, today).value.value.start;
      && start.year == (if a.year.Some? && a.monthDay.Some? then DigitsValue(a.year.value) else today.year)
      && start.month == (if a.monthDay.Some? then DigitsValue(a.monthDay.value[..2])
                         else if a.year.Some? then DigitsValue(a.year.value[..2])
                         else today.month)
      && start.day == (if a.monthDay.Some? then DigitsValue(a.monthDay.value[2..])
                       else if a.year.Some? then DigitsValue(a.year.value[2..])
                       else today.day)
      && start.hour == Num(a.hour, 0) && start.minute == Num(a.minute, 0) && start.second == Num(a.second, 0)
  {
  }

  /** Which rule picks the end (main.py:42-55), first match wins: the end
      fragment's own full date; else its month and day in the reference
      year; else its clock time on the start's day; else one day after a
      start that named a date but no hour; else one hour after a start that
      named an hour; else the start itself. */
  lemma EndRules(s: string, today: DateTime)
    requires InRange(today)
    requires ParseTime(s, today).Ok? && ParseTime(s, today).value.Some?
    ensures
      var (a, b) := Scan(s).value;
      var sp := ParseTime(s, today).value.value;
      var time := (Num(b.hour, 0), Num(b.minute, 0), Num(b.second, 0));
      var endTime := (sp.end.hour, sp.end.minute, sp.end.second);
      if b.year.Some? && b.monthDay.Some? then
        && sp.end.year == DigitsValue(b.year.value)
        && sp.end.month == DigitsValue(b.monthDay.value[..2])
        && sp.end.day == DigitsValue(b.monthDay.value[2..])
        && endTime == time
      else if b.year.Some? || b.monthDay.Some? then
        var md := if b.monthDay.Some? then b.monthDay.value else b.year.value;
        && sp.end.year == today.year
        && sp.end.month == DigitsValue(md[..2])
        && sp.end.day == DigitsValue(md[2..])
        && endTime == time
      else if b.hour.Some? then
        && (sp.end.year, sp.end.month, sp.end.day) == (sp.start.year, sp.start.month, sp.start.day)
        && endTime == time
      else if (a.year.Some? || a.monthDay.Some?) && a.hour.None? then
        Seconds(sp.end) == Seconds(sp.start) + 86400
      else if a.hour.Some? then
        Seconds(sp.end) == Seconds(sp.start) + 3600
      else
        sp.end == sp.start
  {
  }

  /** The canonical spelling of a fragment: groups in order and always the
      `T` separator, so that no group can be mistaken for another. */
  function PrintGroups(g: Groups): string {
    Flat(g.year) + Flat(g.monthDay) + "T" + Flat(g.hour) + Flat(g.minute) + Flat(g.second)
  }

  function PrintToken(a: Groups, b: Groups): string {
    "#" + PrintGroups(a) + "-" + PrintGroups(b)
  }

  /** Group combinations a token can express unambiguously: a month/day group
      only after a year group, minutes only after an hour, seconds only after
      minutes. */
  predicate Canonical(g: Groups) {
    && Scanned(g)
    && (g.monthDay.Some? ==> g.year.Some?)
    && (g.minute.Some? ==> g.hour.Some?)
    && (g.second.Some? ==> g.minute.Some?)
  }

  lemma GroupTaken(x: string, tail: string, n: nat)
    requires |x| == n && AllDigits(x)
    ensures Group(x + tail, n) == (Some(x), tail)
  {
    assert (x + tail)[..n] == x && (x + tail)[n..] == tail;
  }

  lemma GroupSkipped(t: string, n: nat)
    requires n > 0 && (|t| == 0 || !IsDigit(t[0]))
    ensures Group(t, n) == (None, t)
  {
    if |t| >= n {
      assert !IsDigit(t[..n][0]);
    }
  }

  lemma GroupOf(g: Option<string>, tail: string, n: nat)
    requires n > 0 && Digits(g, n)
    requires g.None? ==> |tail| == 0 || !IsDigit(tail[0])
    ensures Group(Flat(g) + tail, n) == (g, tail)
  {
    if g.Some? {
      GroupTaken(g.value, tail, n);
    } else {
      assert Flat(g) + tail == tail;
      GroupSkipped(tail, n);
    }
  }

  /** The scanner reads a canonically printed fragment back exactly, and stops
      where the following text begins. */
  lemma ScanFragmentPrinted(g: Groups, rest: string)
    requires Canonical(g)
    requires |rest| == 0 || !IsDigit(rest[0])
    ensures ScanFragment(PrintGroups(g) + rest) == (g, rest)
  {
    var r5 := Flat(g.second) + rest;
    var r4 := Flat(g.minute) + r5;
    var r3 := Flat(g.hour) + r4;
    var r2 := "T" + r3;
    var r1 := Flat(g.monthDay) + r2;
    var r0 := Flat(g.year) + r1;
    assert PrintGroups(g) + rest == r0;
    GroupOf(g.year, r1, 4);
    GroupOf(g.monthDay, r2, 4);
    assert Skip(r2, 'T') == r3;
    GroupOf(g.second, rest, 2);
    GroupOf(g.minute, r5, 2);
    GroupOf(g.hour, r4, 2);
  }

  /** Printing two canonical fragments as a token and scanning it gives the
      same groups back. */
  lemma {:induction false} ScanPrintToken(a: Groups, b: Groups)
    requires Canonical(a) && Canonical(b)
    ensures Scan(PrintToken(a, b)) == Some((a, b))
  {
    var token := PrintToken(a, b);
    var rest := "-" + PrintGroups(b);
    assert token[1..] == PrintGroups(a) + rest;
    ScanFragmentPrinted(a, rest);
    assert Skip(rest, '-') == PrintGroups(b) + "";
    ScanFragmentPrinted(b, "");
  }

  function Literal(g: Groups): DateTime
    requires Scanned(g) && g.year.Some? && g.monthDay.Some?
  {
    DateTime(DigitsValue(g.year.value), DigitsValue(g.monthDay.value[..2]), DigitsValue(g.monthDay.value[2..]),
             Num(g.hour, 0), Num(g.minute, 0), Num(g.second, 0))
  }

  /** Both fragments written out in full (8-digit date, then `T` and the
      clock): start and end are exactly the literal digits, whatever the
      reference date. */
  lemma ParseFullySpecified(a: Groups, b: Groups, today: DateTime)
    requires InRange(today) && Canonical(a) && Canonical(b)
    requires a.year.Some? && a.monthDay.Some? && b.year.Some? && b.monthDay.Some?
    requires InRange(Literal(a)) && InRange(Literal(b))
    ensures ParseTime(PrintToken(a, b), today) == Ok(Some(Span(Literal(a), Literal(b))))
  {
    ScanPrintToken(a, b);
  }

  /** Text that opens with neither a digit nor `T` yields an empty fragment. */
  lemma ScanFragmentEmpty(t: string)
    requires |t| == 0 || (!IsDigit(t[0]) && t[0] != 'T')
    ensures ScanFragment(t) == (Groups(None, None, None, None, None), t)
  {
    GroupSkipped(t, 4);
    GroupSkipped(t, 2);
  }

  /** A lone 4-digit run is the year group. */
  lemma ScanFragmentFour(x: string, rest: string)
    requires |x| == 4 && AllDigits(x)
    requires |rest| == 0 || (!IsDigit(rest[0]) && rest[0] != 'T')
    ensures ScanFragment(x + rest) == (Groups(Some(x), None, None, None, None), rest)
  {
    GroupTaken(x, rest, 4);
    GroupSkipped(rest, 4);
    GroupSkipped(rest, 2);
  }

  /** An 8-digit run is the year group and the month/day group. */
  lemma ScanFragmentEight(x: string, rest: string)
    requires |x| == 8 && AllDigits(x)
    requires |rest| == 0 || (!IsDigit(rest[0]) && rest[0] != 'T')
    ensures ScanFragment(x + rest) == (Groups(Some(x[..4]), Some(x[4..]), None, None, None), rest)
  {
    assert x + rest == x[..4] + (x[4..] + rest);
    GroupTaken(x[..4], x[4..] + rest, 4);
    GroupTaken(x[4..], rest, 4);
    GroupSkipped(rest, 2);
  }

  /** `T` and four digits are hour and minute. */
  lemma ScanFragmentClock(x: string, rest: string)
    requires |x| == 4 && AllDigits(x)
    requires |rest| == 0 || !IsDigit(rest[0])
    ensures ScanFragment("T" + x + rest) == (Groups(None, None, Some(x[..2]), Some(x[2..]), None), rest)
  {
    var t := "T" + x + rest;
    GroupSkipped(t, 4);
    assert Skip(t, 'T') == x[..2] + (x[2..] + rest);
    GroupTaken(x[..2], x[2..] + rest, 2);
    GroupTaken(x[2..], rest, 2);
    GroupSkipped(rest, 2);
  }

  /** Two 8-digit dates joined by `-` are two year and month/day groups. */
  lemma ScanTwoDates(x: string, y: string)
    requires |x| == 8 && AllDigits(x) && |y| == 8 && AllDigits(y)
    ensures Scan("#" + x + "-" + y)
            == Some((Groups(Some(x[..4]), Some(x[4..]), None, None, None),
                     Groups(Some(y[..4]), Some(y[4..]), None, None, None)))
  {
    var token := "#" + x + "-" + y;
    assert token[1..] == x + ("-" + y);
    ScanFragmentEight(x, "-" + y);
    assert Skip("-" + y, '-') == y + "";
    ScanFragmentEight(y, "");
  }

  lemma ScanDateRange()
    ensures Scan("#20250601-20250603")
            == Some((Groups(Some("2025"), Some("0601"), None, None, None),
                     Groups(Some("2025"), Some("0603"), None, None, None)))
  {
    var x, y := "20250601", "20250603";
    assert "#20250601-20250603" == "#" + x + "-" + y;
    assert x[..4] == "2025" && x[4..] == "0601";
    assert y[..4] == "2025" && y[4..] == "0603";
    ScanTwoDates(x, y);
  }

  lemma NormalizeDateRange()
    ensures Normalize(Groups(Some("2025"), Some("0601"), None, None, None))
            == Fields(Some("2025"), Some("06"), Some("01"), None, None, None)
    ensures Normalize(Groups(Some("2025"), Some("0603"), None, None, None))
            == Fields(Some("2025"), Some("06"), Some("03"), None, None, None)
  {
    assert "0601"[..2] == "06" && "0601"[2..] == "01";
    assert "0603"[..2] == "06" && "0603"[2..] == "03";
  }

  lemma ResolveDateRange(today: DateTime)
    ensures
      var st := Fields(Some("2025"), Some("06"), Some("01"), None, None, None);
      var en := Fields(Some("2025"), Some("06"), Some("03"), None, None, None);
      && StartOf(st, today) == Ok(DateTime(2025, 6, 1, 0, 0, 0))
      && EndOf(st, en, DateTime(2025, 6, 1, 0, 0, 0), today) == Ok(DateTime(2025, 6, 3, 0, 0, 0))
  {
    DigitsValueFour("2025");
    DigitsValueTwo("06");
    DigitsValueTwo("01");
    DigitsValueTwo("03");
  }

  /** Two full dates without clock times: midnight to midnight, the end
      taken from its own fragment rather than one day after the start. */
  lemma ExampleDateRange(today: DateTime)
    requires InRange(today)
    ensures ParseTime("#20250601-20250603", today)
            == Ok(Some(Span(DateTime(2025, 6, 1, 0, 0, 0), DateTime(2025, 6, 3, 0, 0, 0))))
  {
    ScanDateRange();
    NormalizeDateRange();
    ResolveDateRange(today);
  }

  /** No recognisable group at all: a zero-length span at the reference
      date's midnight (main.py:55). */
  lemma ExampleNoGroups(today: DateTime)
    requires InRange(today)
    ensures ParseTime("#abc", today)
            == Ok(Some(Span(DateTime(today.year, today.month, today.day, 0, 0, 0),
                            DateTime(today.year, today.month, today.day, 0, 0, 0))))
  {
    assert "#abc"[1..] == "abc";
    ScanFragmentEmpty("abc");
  }

  /** A bare 4-digit run is month and day, never a clock time: `0900` asks
      for day 0 of September and `datetime` raises. */
  lemma ExampleBareClockIsDate(today: DateTime)
    requires InRange(today)
    ensures ParseTime("#0900-1030", today) == Raised(ValueError)
  {
    var x, y := "0900", "1030";
    assert "#0900-1030" == "#" + x + "-" + y;
    ScanTwoFours(x, y);
    var a, b := Groups(Some(x), None, None, None, None), Groups(Some(y), None, None, None, None);
    ParseScanned("#0900-1030", a, b, today);
    DayZeroRaises(a, b, today);
  }

  lemma DayZeroRaises(a: Groups, b: Groups, today: DateTime)
    requires InRange(today) && Scanned(a) && Scanned(b)
    requires a == Groups(Some("0900"), None, None, None, None)
    ensures Resolve(Normalize(a), Normalize(b), today) == Raised(ValueError)
  {
    assert "0900"[..2] == "09" && "0900"[2..] == "00";
    DigitsValueTwo("09");
    DigitsValueTwo("00");
    assert Normalize(a).day == Some("00");
  }

  /** Two 4-digit runs joined by `-` are two lone year groups. */
  lemma ScanTwoFours(x: string, y: string)
    requires |x| == 4 && AllDigits(x) && |y| == 4 && AllDigits(y)
    ensures Scan("#" + x + "-" + y)
            == Some((Groups(Some(x), None, None, None, None), Groups(Some(y), None, None, None, None)))
  {
    var token := "#" + x + "-" + y;
    assert token[1..] == x + ("-" + y);
    ScanFragmentFour(x, "-" + y);
    assert Skip("-" + y, '-') == y + "";
    ScanFragmentFour(y, "");
  }
}
